=== FILE: README.md ===
# Premier League rule-change standings, modelled in Dafny

The program recomputes historical Premier League tables under a
counterfactual rule: a 0-0 draw earns no points instead of one. For each
season it folds the match results into one record per team and ranks the
teams twice. The first ranking uses the original 3/1/0 points and the second
uses the "new" points, which are the original points less one per goalless
draw. In both, ties are broken by goal difference and then goals scored. It
reports each team's original position, new position and position change.

This project models the following parts:

- the standings computation `LeagueTableCalculator.CalculateTable`, that is,
  team discovery, the per-match fold, the two stable rankings and position
  numbering;
- the team record with its derived fields (`GD`, `NewPoints`,
  `PositionChange`) and the two plain row types;
- the helpers of the command-line program: the list of season codes, the
  reading of `--seasons` / `--all` from the arguments, the season label
  built from a code, and the projection of a team record onto an exported
  row;
- two computations of the exporter: the worksheet-name sanitiser and a
  season's total of goalless draws.

Modules, one per file:

| file | module | models |
|---|---|---|
| match_record.dfy | `MatchRecords` | a match row, how its result code is read, counts over a match list |
| team_season_stats.dfy | `TeamSeasonStats` | the team record, its derived fields, column sums over lists of records |
| season_result.dfy | `SeasonResults` | the exported row |
| aggregation.dfy | `Aggregation` | team discovery and the per-match fold into a `map<string, Stats>` |
| ranking.dfy | `Ranking` | the descending key triple, a stable insertion sort, numbering by index |
| league_table.dfy | `LeagueTable` | `CalculateTable` and the properties of the table it returns |
| permutations.dfy | `Permutations` | sums and permutations of integer lists, used for the position columns |
| digits.dfy | `Digits` | decimal formatting and its `D2` zero-padded form |
| text.dfy | `Text` | .NET `Trim`, `Split` (with and without `RemoveEmptyEntries`/`TrimEntries`) and `Replace` |
| program.dfy | `Program` | `GetAllSeasonCodes`, `ParseSeasonCodes`, `FormatSeason`, `ConvertToSeasonResult` |
| csv_exporter.dfy | `CsvExporter` | `SanitizeSheetName` and the season's 0-0 total |

Modelling choices:

- Goal counts are plain integers. The code validates nothing, so there is no
  error path for negative goals.
- The result code `FTR` stays a string. "H", "A" and "D" each have their own
  branch. Any other code adds goals and a game played but no result and no
  points.
- A match whose home and away team are the same updates that team's record
  twice, as the code does. All season-wide totals hold even then. The facts
  that need distinct sides say so.
- The dictionary's value order is taken to be first-appearance order, home
  side before away side. The team list is built in that order.
  `OrderByDescending(...).ThenByDescending(...)` is a stable sort; the model
  uses a stable insertion sort. `Sort`'s contract (a permutation, ranked,
  rows with equal keys in input order) is what a stable sort guarantees,
  so exact ties keep first-appearance order in both passes.
- The second pass sorts the dictionary's list, not the first pass's output.
  The first pass wrote original positions into the shared records, and the
  second pass's keys do not read them (`SecondPassIgnoresFirst`).
- `FormatSeason` returns `Option<string>`. `None` stands for the exception
  `int.Parse` throws. The caller catches it and skips the season.
  Besides two digits, `int.Parse` of a two-character string accepts one
  digit with a sign or white space before it, or with white space or a NUL
  after it; `ParseTwo` models what the invariant culture accepts.

## Model

| member | source | states |
|---|---|---|
| MatchRecords.ResultOfCode | LeagueTableCalculator.cs:48-60 | a match is a home win, away win or draw exactly when its result code equals "H", "A" or "D"; every other code is unrecognised |
| MatchRecords.AppearancesWithoutSelfMatches | LeagueTableCalculator.cs:41-42 | when no match has the same team on both sides, the sides a team takes equal the matches it plays in |
| TeamSeasonStats.ConsistentPoints | Models/TeamSeasonStats.cs:21 | for a record whose goalless draws are among its draws and whose points are 3 per win and 1 per draw, the new points lie between 0 and the original points, and equal them exactly when there are no goalless draws |
| TeamSeasonStats.ConsistentAdd | LeagueTableCalculator.cs:48-72 | adding one match's counters keeps a record consistent, and keeps it decided when every game has a result |
| TeamSeasonStats.FreshIsZero | Models/TeamSeasonStats.cs:9-25 | a newly created record reads zero in every column, stored or derived, carries the given team name, and is consistent and decided |
| TeamSeasonStats.TotalPositionChange | Models/TeamSeasonStats.cs:24 | summed over any list of records, the position change is the sum of the original positions less the sum of the new positions |
| TeamSeasonStats.AlikeTotals | LeagueTableCalculator.cs:84-99 | lists that differ only in positions have the same total in every counter column |
| Aggregation.TeamsFacts | LeagueTableCalculator.cs:10-26 | discovery lists every team that plays home or away, each once, and no other team; no matches give no teams |
| Aggregation.TeamsOfPrefix | LeagueTableCalculator.cs:10-26 | the teams discovered in a prefix of the season are a prefix of the season's team list, so the list is ordered by the match of first appearance |
| Aggregation.TeamsStep | LeagueTableCalculator.cs:12-25 | one more match enrolls its home team if new, then its away team if new, after the teams already listed |
| Aggregation.HomeBeforeAway | LeagueTableCalculator.cs:12-25 | a team first seen in match k comes right after the teams of the earlier matches, and when both sides of that match are new the home team is listed just before the away team |
| Aggregation.Registry | LeagueTableCalculator.cs:12-25 | the dictionary after discovery holds one fresh record per discovered team |
| Aggregation.StepAt | LeagueTableCalculator.cs:31-72 | processing one match adds to each team exactly that match's share: home share, away share, both for a self-match, nothing for a team that does not play |
| Aggregation.AccumulateAt | LeagueTableCalculator.cs:29-73 | after the loop over the matches each team's record is its starting record plus the sum of its shares of all matches |
| Aggregation.Tally | LeagueTableCalculator.cs:7-73 | the dictionary the two loops build has exactly the participants as keys, and each value is that team's fresh record plus its season's shares |
| Aggregation.TotalsFacts | LeagueTableCalculator.cs:41-72 | a team's accumulated record counts the sides it took (the matches it played when no match is a self-match), has non-negative results summing to at most the games played, and equal to them when every code is H, A or D, 3/1/0 points and goalless draws among its draws |
| Ranking.Insert | LeagueTableCalculator.cs:78-82 | inserting a row adds exactly that row to the list |
| Ranking.InsertRanked | LeagueTableCalculator.cs:78-82 | inserting into a ranked list keeps it ranked |
| Ranking.InsertWithKey | LeagueTableCalculator.cs:78-82 | the inserted row goes in front of the rows it ties with and leaves their order alone |
| Ranking.Sort | LeagueTableCalculator.cs:78-82 | the sort returns a permutation of its input, ranked descending on the rule's (points, GD, GF), in which the rows sharing any key keep their input order |
| Ranking.AssignPositions | LeagueTableCalculator.cs:84-87 | numbering changes nothing but positions |
| Ranking.AssignPositionsKeeps | LeagueTableCalculator.cs:96-99 | a pass writes position i + 1 into the row at index i and leaves the other pass's position as it was |
| Ranking.AlikeRanked | LeagueTableCalculator.cs:90-94 | whether a list is ranked does not depend on the positions in its rows |
| Ranking.RankedPoints | LeagueTableCalculator.cs:90-94 | down a ranked list the rule's points never increase |
| Ranking.SortAlike | LeagueTableCalculator.cs:90-94 | lists that differ only in their positions sort into lists that differ only in their positions |
| Ranking.SortKeepsNames | LeagueTableCalculator.cs:78-94 | sorting keeps the set of team names |
| Ranking.SortDistinct | LeagueTableCalculator.cs:78-94 | sorting rows with distinct names keeps them distinct |
| Ranking.SortTotal | LeagueTableCalculator.cs:78-94 | sorting keeps every column total |
| LeagueTable.RosterRows | LeagueTableCalculator.cs:75 | the dictionary's values list one record per discovered team in discovery order, each its team's season sum |
| LeagueTable.PositionIn | LeagueTableCalculator.cs:84-87 | finds the first row of a team, which is where the first pass wrote that team's original position |
| LeagueTable.CalculateTable | LeagueTableCalculator.cs:5-102 | the returned table has one row per discovered team, the row at index i has new position i + 1, and it is ranked on (new points, GD, GF) |
| LeagueTable.SecondPassIgnoresFirst | LeagueTableCalculator.cs:90-94 | the second pass orders the teams exactly as ranking the bare records on new points does, whatever the first pass wrote |
| LeagueTable.TableTeams | LeagueTableCalculator.cs:10-26 | team names in the table are distinct, a team has a row exactly when it plays in some match, and no matches give an empty table |
| LeagueTable.TableRecords | LeagueTableCalculator.cs:29-73 | apart from its two positions every row equals its team's sum over the season's matches |
| LeagueTable.TableRowFacts | LeagueTableCalculator.cs:41-72 | every row counts the sides its team took (its matches when no match is a self-match); its results add up to at most played, and equal played when every code is H, A or D; it has 3/1/0 points; its new points lie between 0 and the original points and equal them exactly when it has no goalless draw |
| LeagueTable.TableOrder | LeagueTableCalculator.cs:90-101 | the table is ranked on (new points, GD, GF), numbered by index, and teams tied on all three keys appear in first-appearance order |
| LeagueTable.OriginalNumbered | LeagueTableCalculator.cs:84-87 | the first pass has one row per team and numbers it by index |
| LeagueTable.OriginalTableOrder | LeagueTableCalculator.cs:78-87 | the first pass is ranked on (original points, GD, GF), numbered by index, and teams tied on all three keys appear in first-appearance order |
| LeagueTable.OriginalPositions | LeagueTableCalculator.cs:84-99 | every returned row's original position is its team's index + 1 in the first pass |
| LeagueTable.PointersArePermutation | LeagueTableCalculator.cs:84-87 | rows with distinct names, each pointing by position at its own name in a list as long as the rows, carry the positions 1..N in some order |
| LeagueTable.PositionsArePermutations | LeagueTableCalculator.cs:84-99 | the new positions are 1..N in order and the original positions are 1..N in some order |
| LeagueTable.PositionChangesCancel | LeagueTableCalculator.cs:84-99 | the position changes of a season sum to zero |
| LeagueTable.TeamSumIsMatchSum | LeagueTableCalculator.cs:29-73 | summing a counter column team by team equals summing each match's home and away shares |
| LeagueTable.TableTotal | LeagueTableCalculator.cs:29-73 | a counter column summed over the table is that column summed over the matches' two sides |
| LeagueTable.MatchSums | LeagueTableCalculator.cs:35-72 | over the matches' sides: played sums to twice the matches, goals for and against each to the goals scored, goal difference to 0, points to 3 per H or A and 2 per D, goalless draws to twice their number |
| LeagueTable.TableBalances | LeagueTableCalculator.cs:35-72 | over the table: played totals twice the matches, GF and GA each total the goals scored, GD totals 0, original points total 3 per "H" or "A" plus 2 per "D", and the 0-0 column totals twice the goalless draws |
| Digits.Decimal | Program.cs:58 | the decimal form of a number is non-empty, all digits, with no leading zero unless the number is 0 |
| Digits.ParseDecimal | Program.cs:58 | reading a number's decimal form back gives the number |
| Digits.DecimalParse | Program.cs:51-52 | a digit string with no leading zero is the decimal form of its value |
| Digits.D2Digits | Program.cs:10 | `D2` of a number below 100 is its tens digit then its units digit, which read back as the number |
| Digits.D2Parse | Program.cs:58 | every two-digit string is `D2` of its value |
| Digits.DecimalHundreds | Program.cs:55-58 | for c >= 1 and y < 100, the decimal form of 100c + y is that of c followed by `D2` of y |
| Text.TrimStartFacts | Program.cs:25 | trimming the start cuts off only white space and leaves a suffix that does not start with white space |
| Text.TrimEndFacts | Program.cs:25 | trimming the end cuts off only white space and leaves a prefix that does not end with white space |
| Text.TrimFacts | Program.cs:25 | a trimmed string has no white space at either end and is made of the original's characters |
| Text.TrimUnchanged | Program.cs:25 | trimming changes a string exactly when it has white space at an end |
| Text.TrimIdempotent | Program.cs:25 | trimming twice is trimming once |
| Text.SplitParts | Program.cs:25 | no part of a split holds the separator |
| Text.JoinSplit | Program.cs:25 | joining the parts of a split with the separator restores the string |
| Text.SplitJoin | Program.cs:25 | splitting a join of separator-free parts gives the parts back |
| Text.EntriesClean | Program.cs:25 | entries left after trimming and dropping empties are non-empty and trimmed |
| Text.EntriesOfBlank | Program.cs:25 | parts that are all white space leave no entries |
| Text.SplitEntriesClean | Program.cs:25 | every entry of a split with trimming and dropping empties is non-empty, trimmed and free of the separator |
| Text.SplitEntriesJoin | Program.cs:25 | a separator-joined list of non-empty, trimmed, separator-free entries splits back into that list |
| Program.SeasonCodeDigits | Program.cs:9-10 | a season code is four digits: the year's last two digits zero-padded, then the next year's |
| Program.AllSeasonCodesEnds | Program.cs:4-14 | there are 31 season codes, from "9394" to "2324" |
| Program.AllSeasonCodesLabelled | Program.cs:7-10 | the i-th code is four digits and is labelled as the season starting in 1993 + i, "<year>-<next year mod 100, two digits>" |
| Program.AllSeasonCodesDistinct | Program.cs:7-11 | no season code is listed twice |
| Program.ParseTwo | Program.cs:51-52 | a two-character parse that succeeds gives a value from -9 to 99 |
| Program.ParseTwoDigits | Program.cs:51-52 | two digits parse to their value, two non-digits fail, and only a leading minus gives a negative value |
| Program.FormatSeasonOtherLengths | Program.cs:48-49 | a code of any length other than 4 is returned unchanged |
| Program.FormatSeasonValue | Program.cs:51-58 | a four-digit code's label is its first half's full year, a dash, and its second half's full year mod 100 padded to two digits |
| Program.FormatSeasonDigits | Program.cs:55-58 | a four-digit code's label has the shape dddd-dd, starts with "20" when the code starts below '5' and "19" otherwise, and gives the code back from its last six characters without the dash |
| Program.CenturyDigit | Program.cs:55-56 | a two-digit year is below 50, and so placed in the 2000s, exactly when its first digit is below '5' |
| Program.SeasonLabel | Program.cs:55-58 | for every season starting from 1950 through 2049, the label of its code is "<year>-<next year mod 100, two digits>" |
| Program.SeasonCodesDiffer | Program.cs:9-10 | seasons starting in different years from 1950 through 2049 have different codes |
| Program.ParseSeasonCodesShape | Program.cs:17-43 | the selection is never empty: it is every season, or a list of non-empty, trimmed, comma-free codes |
| Program.ParseAll | Program.cs:29-32 | an `--all` reached with no `--seasons` before it selects every season |
| Program.ParseAllAfterSeasons | Program.cs:29-32 | an `--all` still selects every season after `--seasons x`, dropping the codes collected from x |
| Program.ScanSeasons | Program.cs:23-27 | `--seasons x` adds the entries of x to the codes collected so far and the scan goes on after x |
| Program.ParseTwoSeasons | Program.cs:26 | two `--seasons` flags add up: the second one's entries follow the first one's, and every season is selected when both are empty |
| Program.ParseWithoutSeasons | Program.cs:36-40 | arguments without `--seasons` select every season |
| Program.ParseSeasonsThenOthers | Program.cs:23-27 | `--seasons x` followed by neither flag selects the trimmed non-empty comma-separated entries of x, or every season when there are none |
| Program.ParseSeasonsList | Program.cs:23-27 | codes joined with commas after `--seasons` come back as they were |
| Program.TrailingSeasonsIgnored | Program.cs:23 | a `--seasons` with no argument after it changes nothing |
| Program.ConvertBalanced | Program.cs:62-76 | the exported row carries the given season label and copies the team, both positions, the original points and the goalless draws; its position change is the original less the new position, its new points the original points less the goalless draws, and its goal difference GF - GA |
| Program.ConvertAll | Program.cs:121 | one exported row per table row |
| Program.ConvertTotals | Program.cs:121 | the exported rows' 0-0 column and position-change column total the same as the table's |
| Program.ConvertRanked | Program.cs:121 | rows converted from a ranked, index-numbered table are numbered by index and their new points never increase |
| Program.ConvertConsistent | Program.cs:62-76 | rows converted from consistent records are balanced, with new points between 0 and the original points |
| Program.SeasonResultsOrder | Program.cs:117-121 | a season's exported rows are one per team, carry the season label, are numbered 1, 2, ... and have non-increasing new points |
| Program.SeasonResultsRows | Program.cs:117-121 | every exported row of a season is balanced, with new points between 0 and the original points |
| Program.SeasonResultsTotals | Program.cs:117-121 | over a season's exported rows the position changes sum to 0 and the 0-0 column sums to twice the season's goalless draws |
| CsvExporter.ReplaceForbiddenChars | CsvExporter.cs:234-240 | the six replacements keep the length and map each character on its own, turning exactly `\ / ? * [ ]` into '_' |
| CsvExporter.SanitizedIsValid | CsvExporter.cs:228-249 | a sanitised name has 1 to 31 characters, none of them forbidden |
| CsvExporter.SanitizedContents | CsvExporter.cs:234-248 | the empty name becomes "Sheet1"; any other becomes its first min(length, 31) characters, each forbidden one replaced by '_' |
| CsvExporter.SanitizeKeepsValidNames | CsvExporter.cs:234-248 | a name of 1 to 31 characters with none forbidden is returned unchanged |
| CsvExporter.SanitizeIdempotent | CsvExporter.cs:228-249 | sanitising a sanitised name changes nothing |
| CsvExporter.CountGoallessDrawsAgrees | CsvExporter.cs:107 | the exporter's count of matches with both scores 0 and code "D" equals the standings' count of goalless draws |
| CsvExporter.Half | CsvExporter.cs:112 | C# integer halving rounds toward zero |
| CsvExporter.ZeroZeroTotalAgrees | CsvExporter.cs:103-113 | for rows converted from a season's table, whether or not the season's matches are known, the total is that season's number of goalless draws, self-matches included |

## Left out

- CsvDownloadService.cs is not part of this model: it fetches the season files over HTTP and caches them on disk.
- LoadSeasons.cs is not part of this model: it reads match rows through the CsvHelper library. A season arrives as a `seq<Match>`.
- The exporter's CSV and workbook output is not modelled: file writing, cell styling and the EPPlus calls. This includes the choice of the sheet name from the first row's season (CsvExporter.cs:63). Only the two computations above are modelled.
- The top-level program (Program.cs:78-154) is not modelled: console output, the per-season try/catch, disposal and the exit code. This includes the message printed when no season is given (Program.cs:38). A failing `FormatSeason` shows up only as `None`.
- Integer width: every counter is unbounded. No real season comes near the 32-bit limit, so `int` overflow is not modelled.
- String lengths are counted in Unicode scalar values, not UTF-16 code units. `Substring(0, 31)` of a name with characters outside the Basic Multilingual Plane is not modelled exactly.
- Program.ParseTwo: models `int.Parse` under the invariant culture only. Current-culture sign symbols are not modelled.
- LeagueTable.CalculateTable: the season label parameter is accepted and unused, as in the code.
- The order of `Dictionary.Values` is assumed to be insertion order. .NET does not promise this, but it holds for a dictionary that only grows.

=== FILE: aggregation.dfy ===
/** Team discovery and the per-match fold of LeagueTableCalculator.CalculateTable
    (LeagueTableCalculator.cs:7-73). */
module Aggregation {

  import opened Permutations
  import opened MatchRecords
  import opened TeamSeasonStats

  // ---------------------------------------------------------------------------
  // Team discovery: the first loop, which creates one record per new name.
  // The dictionary's value order is taken to be insertion order, so the
  // team list is kept in order of first appearance, home side before away.

  function Enroll(teams: seq<string>, t: string): seq<string>
  {
    if t in teams then teams else teams + [t]
  }

  function DiscoverFrom(teams: seq<string>, ms: seq<Match>): seq<string>
    decreases |ms|
  {
    if |ms| == 0 then teams
    else DiscoverFrom(Enroll(Enroll(teams, ms[0].homeTeam), ms[0].awayTeam), ms[1..])
  }

  /** The teams of a season in order of first appearance. */
  function Teams(ms: seq<Match>): seq<string>
  {
    DiscoverFrom([], ms)
  }

  lemma ParticipantsCons(ms: seq<Match>)
    requires |ms| > 0
    ensures Participants(ms) == {ms[0].homeTeam, ms[0].awayTeam} + Participants(ms[1..])
  {
    assert forall x :: x in ms <==> x == ms[0] || x in ms[1..] by {
      assert ms == [ms[0]] + ms[1..];
    }
  }

  lemma {:induction false} DiscoverFromFacts(teams: seq<string>, ms: seq<Match>)
    requires Distinct(teams)
    ensures Distinct(DiscoverFrom(teams, ms))
    ensures forall t :: t in DiscoverFrom(teams, ms) <==> t in teams || t in Participants(ms)
    ensures |teams| <= |DiscoverFrom(teams, ms)| && DiscoverFrom(teams, ms)[..|teams|] == teams
    decreases |ms|
  {
    if |ms| == 0 {
      assert Participants(ms) == {};
    } else {
      var next := Enroll(Enroll(teams, ms[0].homeTeam), ms[0].awayTeam);
      assert next[..|teams|] == teams;
      DiscoverFromFacts(next, ms[1..]);
      ParticipantsCons(ms);
      var r := DiscoverFrom(next, ms[1..]);
      assert r[..|teams|] == r[..|next|][..|teams|];
    }
  }

  /** Every participant is listed exactly once, nobody else is listed, and
      no matches means no teams. */
  lemma TeamsFacts(ms: seq<Match>)
    ensures Distinct(Teams(ms))
    ensures forall t :: t in Teams(ms) <==> t in Participants(ms)
    ensures |ms| == 0 ==> Teams(ms) == []
  {
    DiscoverFromFacts([], ms);
  }

  /** Discovery order is first-appearance order: the teams of any prefix of
      the season are a prefix of the season's teams. */
  lemma {:induction false} TeamsOfPrefix(ms: seq<Match>, k: nat)
    requires k <= |ms|
    ensures |Teams(ms[..k])| <= |Teams(ms)|
    ensures Teams(ms)[..|Teams(ms[..k])|] == Teams(ms[..k])
  {
    DiscoverSplit([], ms, k);
    DiscoverFromFacts([], ms[..k]);
    DiscoverFromFacts(Teams(ms[..k]), ms[k..]);
  }

  /** Discovering one more match enrolls its home team, then its away team. */
  lemma {:induction false} TeamsStep(ms: seq<Match>, k: nat)
    requires k < |ms|
    ensures Teams(ms[..k + 1]) == Enroll(Enroll(Teams(ms[..k]), ms[k].homeTeam), ms[k].awayTeam)
  {
    DiscoverSplit([], ms[..k + 1], k);
    assert ms[..k + 1][..k] == ms[..k];
    assert ms[..k + 1][k..] == [ms[k]];
    assert [ms[k]][1..] == [];
  }

  /** Within a match the home side is enrolled before the away side: a team
      that first appears in match k follows every team of the earlier matches,
      and when both sides are new the home team comes first. */
  lemma {:induction false} HomeBeforeAway(ms: seq<Match>, k: nat)
    requires k < |ms|
    requires ms[k].homeTeam !in Teams(ms[..k])
    ensures |Teams(ms[..k])| < |Teams(ms)|
    ensures Teams(ms)[|Teams(ms[..k])|] == ms[k].homeTeam
    ensures ms[k].awayTeam !in Teams(ms[..k]) && ms[k].awayTeam != ms[k].homeTeam ==>
              |Teams(ms[..k])| + 1 < |Teams(ms)| && Teams(ms)[|Teams(ms[..k])| + 1] == ms[k].awayTeam
  {
    var before := Teams(ms[..k]);
    var after := Teams(ms[..k + 1]);
    TeamsStep(ms, k);
    TeamsOfPrefix(ms, k + 1);
    assert Teams(ms)[..|after|] == after;
    assert after[|before|] == ms[k].homeTeam;
    if ms[k].awayTeam !in before && ms[k].awayTeam != ms[k].homeTeam {
      assert after[|before| + 1] == ms[k].awayTeam;
    }
  }

  lemma {:induction false} DiscoverSplit(teams: seq<string>, ms: seq<Match>, k: nat)
    requires k <= |ms|
    ensures DiscoverFrom(teams, ms) == DiscoverFrom(DiscoverFrom(teams, ms[..k]), ms[k..])
    decreases k
  {
    if k > 0 {
      var next := Enroll(Enroll(teams, ms[0].homeTeam), ms[0].awayTeam);
      assert ms[..k][1..] == ms[1..][..k - 1];
      assert ms[k..] == ms[1..][k - 1..];
      DiscoverSplit(next, ms[1..], k - 1);
    }
  }

  // ---------------------------------------------------------------------------
  // Accumulation: the second loop, one update of each side per match.

  /** What one match adds to the home side's record. */
  function HomeDelta(x: Match): Stats
  {
    Zero.(played := 1,
          wins := if ResultOf(x) == HomeWin then 1 else 0,
          draws := if ResultOf(x) == Draw then 1 else 0,
          losses := if ResultOf(x) == AwayWin then 1 else 0,
          gf := x.fthg,
          ga := x.ftag,
          originalPoints := if ResultOf(x) == HomeWin then 3 else if ResultOf(x) == Draw then 1 else 0,
          zeroZeroDraws := if IsZeroZeroDraw(x) then 1 else 0)
  }

  /** What one match adds to the away side's record. */
  function AwayDelta(x: Match): Stats
  {
    Zero.(played := 1,
          wins := if ResultOf(x) == AwayWin then 1 else 0,
          draws := if ResultOf(x) == Draw then 1 else 0,
          losses := if ResultOf(x) == HomeWin then 1 else 0,
          gf := x.ftag,
          ga := x.fthg,
          originalPoints := if ResultOf(x) == AwayWin then 3 else if ResultOf(x) == Draw then 1 else 0,
          zeroZeroDraws := if IsZeroZeroDraw(x) then 1 else 0)
  }

  /** Processes one match: the home record is updated, then the away record is
      looked up again and updated, so a team playing itself is updated twice. */
  function Step(m: map<string, Stats>, x: Match): (m': map<string, Stats>)
    requires x.homeTeam in m && x.awayTeam in m
    ensures m'.Keys == m.Keys
  {
    var m1 := m[x.homeTeam := Add(m[x.homeTeam], HomeDelta(x))];
    m1[x.awayTeam := Add(m1[x.awayTeam], AwayDelta(x))]
  }

  function Accumulate(m: map<string, Stats>, ms: seq<Match>): (m': map<string, Stats>)
    requires Participants(ms) <= m.Keys
    ensures m'.Keys == m.Keys
    decreases |ms|
  {
    if |ms| == 0 then m
    else
      ParticipantsCons(ms);
      Accumulate(Step(m, ms[0]), ms[1..])
  }

  /** The dictionary after the first loop: a fresh record per discovered team. */
  function Registry(teams: seq<string>): (m: map<string, Stats>)
    ensures m.Keys == set t | t in teams
    ensures forall t :: t in m ==> m[t] == Fresh(t)
  {
    map t | t in teams :: Fresh(t)
  }

  // ---------------------------------------------------------------------------
  // The team-centred view: what the season contributes to one team.

  /** The increment one match makes to team `t`: its home share, its away
      share, both when it plays itself, nothing when it does not play. */
  function Contribution(t: string, x: Match): Stats
  {
    if x.homeTeam == t && x.awayTeam == t then Add(HomeDelta(x), AwayDelta(x))
    else if x.homeTeam == t then HomeDelta(x)
    else if x.awayTeam == t then AwayDelta(x)
    else Zero
  }

  function Contributions(t: string, ms: seq<Match>): Stats
  {
    if |ms| == 0 then Zero else Add(Contribution(t, ms[0]), Contributions(t, ms[1..]))
  }

  /** Team `t`'s season record as the sum of its matches, without positions. */
  function Totals(t: string, ms: seq<Match>): Stats
  {
    Add(Fresh(t), Contributions(t, ms))
  }

  /** Column `c` of what one match gives team `t`: its home share if it is
      the home side plus its away share if it is the away side. */
  function Share(t: string, x: Match, c: Column): int
  {
    (if x.homeTeam == t then Get(HomeDelta(x), c) else 0)
    + (if x.awayTeam == t then Get(AwayDelta(x), c) else 0)
  }

  lemma ContributionGet(t: string, x: Match, c: Column)
    requires c.IsCounter()
    ensures Get(Contribution(t, x), c) == Share(t, x, c)
  {
    if x.homeTeam == t && x.awayTeam == t {
      AddGet(HomeDelta(x), AwayDelta(x), c);
    }
  }

  lemma StepAt(m: map<string, Stats>, x: Match, t: string)
    requires x.homeTeam in m && x.awayTeam in m && t in m
    ensures Step(m, x)[t] == Add(m[t], Contribution(t, x))
  {
    if x.homeTeam == t && x.awayTeam == t {
      AddAssociative(m[t], HomeDelta(x), AwayDelta(x));
    }
  }

  lemma {:induction false} AccumulateAt(m: map<string, Stats>, ms: seq<Match>, t: string)
    requires Participants(ms) <= m.Keys
    requires t in m
    ensures Accumulate(m, ms)[t] == Add(m[t], Contributions(t, ms))
    decreases |ms|
  {
    if |ms| > 0 {
      ParticipantsCons(ms);
      var m' := Step(m, ms[0]);
      StepAt(m, ms[0], t);
      AccumulateAt(m', ms[1..], t);
      assert Accumulate(m, ms) == Accumulate(m', ms[1..]);
      AddAssociative(m[t], Contribution(t, ms[0]), Contributions(t, ms[1..]));
    }
  }

  /** The dictionary the two loops build: one record per participant, each
      holding that team's sum over its matches. */
  function Tally(ms: seq<Match>): (m: map<string, Stats>)
    ensures m.Keys == Participants(ms)
    ensures forall t :: t in m ==> m[t] == Totals(t, ms)
  {
    TeamsFacts(ms);
    var m0 := Registry(Teams(ms));
    assert m0.Keys == Participants(ms);
    var m := Accumulate(m0, ms);
    assert forall t :: t in m ==> m[t] == Totals(t, ms) by {
      forall t | t in m ensures m[t] == Totals(t, ms) {
        AccumulateAt(m0, ms, t);
      }
    }
    m
  }

  // ---------------------------------------------------------------------------
  // What a team's record says about its matches.

  /** A team's record counts its appearances, its results add up, its points
      follow 3/1/0, and its goalless draws are among its draws, so the new
      points lie between zero and the original points. */
  lemma {:induction false} TotalsFacts(t: string, ms: seq<Match>)
    ensures Totals(t, ms).team == t
    ensures Totals(t, ms).originalPosition == 0 && Totals(t, ms).newPosition == 0
    ensures Totals(t, ms).played == Appearances(t, ms)
    ensures NoSelfMatches(ms) ==> Totals(t, ms).played == MatchesInvolving(t, ms)
    ensures Consistent(Totals(t, ms))
    ensures AllKnownResults(ms) ==> Decided(Totals(t, ms))
  {
    ContributionsPlayed(t, ms);
    ContributionsConsistent(t, ms);
    if NoSelfMatches(ms) {
      AppearancesWithoutSelfMatches(t, ms);
    }
  }

  lemma {:induction false} ContributionsPlayed(t: string, ms: seq<Match>)
    ensures Contributions(t, ms).played == Appearances(t, ms)
  {
    if |ms| > 0 {
      var x := ms[0];
      ContributionsPlayed(t, ms[1..]);
      ContributionPlayed(t, x);
      assert Appearances(t, ms)
             == (if x.homeTeam == t then 1 else 0) + (if x.awayTeam == t then 1 else 0) + Appearances(t, ms[1..]);
      assert Contributions(t, ms).played == Contribution(t, x).played + Contributions(t, ms[1..]).played;
    }
  }

  lemma ContributionsConsistent(t: string, ms: seq<Match>)
    ensures Consistent(Contributions(t, ms))
    ensures AllKnownResults(ms) ==> Decided(Contributions(t, ms))
  {
    var ds := Deltas(t, ms);
    ContributionsAreSum(t, ms);
    forall i | 0 <= i < |ds|
      ensures Consistent(ds[i])
      ensures HasKnownResult(ms[i]) ==> Decided(ds[i])
    {
      ContributionConsistent(t, ms[i]);
    }
    SumConsistent(ds);
    if AllKnownResults(ms) {
      SumDecided(ds);
    }
  }

  /** What each match of `ms` gives team `t`, in match order. */
  function Deltas(t: string, ms: seq<Match>): (ds: seq<Stats>)
    ensures |ds| == |ms|
    ensures forall i :: 0 <= i < |ms| ==> ds[i] == Contribution(t, ms[i])
  {
    seq(|ms|, i requires 0 <= i < |ms| => Contribution(t, ms[i]))
  }

  /** The counters of a list of increments, added up. */
  function SumStats(ds: seq<Stats>): Stats
  {
    if |ds| == 0 then Zero else Add(ds[0], SumStats(ds[1..]))
  }

  lemma {:induction false} ContributionsAreSum(t: string, ms: seq<Match>)
    ensures Contributions(t, ms) == SumStats(Deltas(t, ms))
  {
    if |ms| > 0 {
      ContributionsAreSum(t, ms[1..]);
      assert Deltas(t, ms)[1..] == Deltas(t, ms[1..]);
    }
  }

  lemma {:induction false} SumConsistent(ds: seq<Stats>)
    requires forall i :: 0 <= i < |ds| ==> Consistent(ds[i])
    ensures Consistent(SumStats(ds))
  {
    if |ds| == 0 {
      ZeroFacts();
    } else {
      SumConsistent(ds[1..]);
      ConsistentAdd(ds[0], SumStats(ds[1..]));
    }
  }

  lemma {:induction false} SumDecided(ds: seq<Stats>)
    requires forall i :: 0 <= i < |ds| ==> Consistent(ds[i]) && Decided(ds[i])
    ensures Decided(SumStats(ds))
  {
    if |ds| == 0 {
      ZeroFacts();
    } else {
      SumDecided(ds[1..]);
      SumConsistent(ds[1..]);
      ConsistentAdd(ds[0], SumStats(ds[1..]));
    }
  }

  /** One match gives a team one played game per side it takes. */
  lemma ContributionPlayed(t: string, x: Match)
    ensures Contribution(t, x).played == (if x.homeTeam == t then 1 else 0) + (if x.awayTeam == t then 1 else 0)
  {
  }

  /** One match gives a team a consistent increment, with one result per
      side when its code is known. */
  lemma ContributionConsistent(t: string, x: Match)
    ensures Consistent(Contribution(t, x))
    ensures HasKnownResult(x) ==> Decided(Contribution(t, x))
  {
    DeltaFacts(x);
    if x.homeTeam == t && x.awayTeam == t {
      assert Contribution(t, x) == Add(HomeDelta(x), AwayDelta(x));
      ConsistentAdd(HomeDelta(x), AwayDelta(x));
    } else if x.homeTeam == t {
      assert Contribution(t, x) == HomeDelta(x);
    } else if x.awayTeam == t {
      assert Contribution(t, x) == AwayDelta(x);
    } else {
      assert Contribution(t, x) == Zero;
      ZeroFacts();
    }
  }

  lemma ZeroFacts()
    ensures Consistent(Zero) && Decided(Zero) && Zero.played == 0
  {
  }

  /** Each side's increment is one consistent game, decided when the result
      code is known. */
  lemma DeltaFacts(x: Match)
    ensures HomeDelta(x).played == 1 && AwayDelta(x).played == 1
    ensures Consistent(HomeDelta(x)) && Consistent(AwayDelta(x))
    ensures HasKnownResult(x) ==> Decided(HomeDelta(x)) && Decided(AwayDelta(x))
  {
  }
}

=== FILE: csv_exporter.dfy ===
/** The two computations of the exporter (CsvExporter.cs) that are not
    workbook formatting: the worksheet-name sanitiser and a season's total
    of goalless draws. */
module CsvExporter {

  import opened Text
  import opened MatchRecords
  import opened LeagueTable
  import opened SeasonResults
  import opened Program

  // ---------------------------------------------------------------------------
  // Worksheet names.

  /** Excel's longest worksheet name. */
  const MaxSheetName: nat := 31

  /** The characters a worksheet name may not contain. */
  predicate Forbidden(c: char)
  {
    c == '\\' || c == '/' || c == '?' || c == '*' || c == '[' || c == ']'
  }

  /** What a character of a name becomes: a forbidden one turns into '_'. */
  function SheetChar(c: char): char
  {
    if Forbidden(c) then '_' else c
  }

  /** The six `Replace` calls, in the order the exporter makes them. */
  function ReplaceForbidden(name: string): string
  {
    Replace(Replace(Replace(Replace(Replace(Replace(name, '\\', '_'), '/', '_'), '?', '_'), '*', '_'), '[', '_'), ']', '_')
  }

  /** `SanitizeSheetName`: forbidden characters replaced, the result cut to
      31 characters, and "Sheet1" when nothing is left. */
  function SanitizeSheetName(name: string): string
  {
    var sanitized := ReplaceForbidden(name);
    var cut := if |sanitized| > MaxSheetName then sanitized[..MaxSheetName] else sanitized;
    if |cut| > 0 then cut else "Sheet1"
  }

  /** The chain of replacements acts on each character separately, turning
      exactly the forbidden ones into '_'. */
  lemma ReplaceForbiddenChars(name: string)
    ensures |ReplaceForbidden(name)| == |name|
    ensures forall i :: 0 <= i < |name| ==> ReplaceForbidden(name)[i] == SheetChar(name[i])
  {
    var s1 := Replace(name, '\\', '_');
    var s2 := Replace(s1, '/', '_');
    var s3 := Replace(s2, '?', '_');
    var s4 := Replace(s3, '*', '_');
    var s5 := Replace(s4, '[', '_');
    var s6 := Replace(s5, ']', '_');
    forall i | 0 <= i < |name|
      ensures s6[i] == SheetChar(name[i])
    {
      assert s1[i] == (if name[i] == '\\' then '_' else name[i]);
      assert s2[i] == (if s1[i] == '/' then '_' else s1[i]);
      assert s3[i] == (if s2[i] == '?' then '_' else s2[i]);
      assert s4[i] == (if s3[i] == '*' then '_' else s3[i]);
      assert s5[i] == (if s4[i] == '[' then '_' else s4[i]);
      assert s6[i] == (if s5[i] == ']' then '_' else s5[i]);
    }
  }

  /** A sanitised name is a valid worksheet name: between 1 and 31
      characters, none of them forbidden. */
  lemma SanitizedIsValid(name: string)
    ensures 0 < |SanitizeSheetName(name)| <= MaxSheetName
    ensures forall i :: 0 <= i < |SanitizeSheetName(name)| ==> !Forbidden(SanitizeSheetName(name)[i])
  {
    ReplaceForbiddenChars(name);
    var r := SanitizeSheetName(name);
    if |name| == 0 {
      assert r == "Sheet1";
    } else {
      forall i | 0 <= i < |r|
        ensures !Forbidden(r[i])
      {
        assert r[i] == SheetChar(name[i]);
      }
    }
  }

  /** The empty name becomes "Sheet1"; any other name becomes its first 31
      characters (all of it, when shorter), each passed through `SheetChar`. */
  lemma SanitizedContents(name: string)
    ensures |name| == 0 ==> SanitizeSheetName(name) == "Sheet1"
    ensures |name| > 0 ==>
      && |SanitizeSheetName(name)| == (if |name| > MaxSheetName then MaxSheetName else |name|)
      && forall i :: 0 <= i < |SanitizeSheetName(name)| ==> SanitizeSheetName(name)[i] == SheetChar(name[i])
  {
    ReplaceForbiddenChars(name);
  }

  /** A name that is already valid is kept as it is. */
  lemma SanitizeKeepsValidNames(name: string)
    requires 0 < |name| <= MaxSheetName
    requires forall i :: 0 <= i < |name| ==> !Forbidden(name[i])
    ensures SanitizeSheetName(name) == name
  {
    ReplaceForbiddenChars(name);
    var r := SanitizeSheetName(name);
    assert |r| == |name|;
    forall i | 0 <= i < |name|
      ensures r[i] == name[i]
    {
      assert r[i] == SheetChar(name[i]);
    }
  }

  /** Sanitising twice is sanitising once. */
  lemma SanitizeIdempotent(name: string)
    ensures SanitizeSheetName(SanitizeSheetName(name)) == SanitizeSheetName(name)
  {
    SanitizedIsValid(name);
    SanitizeKeepsValidNames(SanitizeSheetName(name));
  }

  // ---------------------------------------------------------------------------
  // The season's total of goalless draws.

  /** The exporter's own count: matches whose scores are both 0 and whose
      result code is the string "D". */
  function CountGoallessDraws(ms: seq<Match>): nat
  {
    if |ms| == 0 then 0
    else (if ms[0].fthg == 0 && ms[0].ftag == 0 && ms[0].ftr == "D" then 1 else 0) + CountGoallessDraws(ms[1..])
  }

  /** The exporter's count and the standings' count of goalless draws agree. */
  lemma {:induction false} CountGoallessDrawsAgrees(ms: seq<Match>)
    ensures CountGoallessDraws(ms) == ZeroZeroCount(ms)
  {
    if |ms| > 0 {
      ResultOfCode(ms[0]);
      CountGoallessDrawsAgrees(ms[1..]);
    }
  }

  /** C#'s `n / 2` on `int`: the quotient rounded toward zero. */
  function Half(n: int): (h: int)
    ensures n >= 0 ==> 0 <= 2 * h <= n <= 2 * h + 1
    ensures n < 0 ==> 2 * h - 1 <= n <= 2 * h <= 0
  {
    if n >= 0 then n / 2 else -((-n) / 2)
  }

  /** The total written under a season's sheet: the count over the season's
      matches when they are known, otherwise half the sum of the rows'
      goalless-draw column. */
  function ZeroZeroTotal(matchesBySeason: map<string, seq<Match>>, seasonCode: string,
                         results: seq<SeasonResult>): int
  {
    if seasonCode in matchesBySeason then CountGoallessDraws(matchesBySeason[seasonCode])
    else Half(ZeroZeroColumnSum(results))
  }

  /** For rows converted from a season's table, both branches give the
      number of goalless draws of that season, also when a match has the
      same team on both sides: each such draw is counted once per side, so
      the halving is exact. */
  lemma ZeroZeroTotalAgrees(matchesBySeason: map<string, seq<Match>>, seasonCode: string,
                            ms: seq<Match>, season: string)
    requires seasonCode in matchesBySeason ==> matchesBySeason[seasonCode] == ms
    ensures ZeroZeroTotal(matchesBySeason, seasonCode, ConvertAll(CalculateTable(ms, season), season))
            == ZeroZeroCount(ms)
  {
    CountGoallessDrawsAgrees(ms);
    SeasonResultsTotals(ms, season);
  }
}

=== FILE: digits.dfy ===
/** Decimal digit strings: the invariant-culture `ToString()` and
    `ToString("D2")` of a non-negative integer, and `int.Parse` of a string
    of ASCII digits. */
module Digits {

  predicate IsDigit(c: char)
  {
    '0' <= c <= '9'
  }

  predicate AllDigits(s: string)
  {
    forall i :: 0 <= i < |s| ==> IsDigit(s[i])
  }

  function DigitValue(c: char): (d: nat)
    requires IsDigit(c)
    ensures d < 10
  {
    (c as int - '0' as int) as nat
  }

  function DigitChar(d: nat): (c: char)
    requires d < 10
    ensures IsDigit(c) && DigitValue(c) == d
  {
    ('0' as int + d) as char
  }

  /** A digit's character is the only character with its value. */
  lemma DigitCharOfValue(c: char)
    requires IsDigit(c)
    ensures DigitChar(DigitValue(c)) == c
  {
  }

  /** The shortest decimal spelling of `n`. */
  function Decimal(n: nat): (s: string)
    ensures |s| >= 1 && AllDigits(s)
    ensures s[0] == '0' ==> n == 0
    decreases n
  {
    if n < 10 then [DigitChar(n)] else Decimal(n / 10) + [DigitChar(n % 10)]
  }

  /** The value of a string of digits, most significant first. */
  function ParseDigits(s: string): nat
    requires AllDigits(s)
    decreases |s|
  {
    if |s| == 0 then 0 else 10 * ParseDigits(s[..|s| - 1]) + DigitValue(s[|s| - 1])
  }

  /** Reading back a spelled number gives the number. */
  lemma {:induction false} ParseDecimal(n: nat)
    ensures ParseDigits(Decimal(n)) == n
    decreases n
  {
    var s := Decimal(n);
    if n >= 10 {
      ParseDecimal(n / 10);
      assert s[..|s| - 1] == Decimal(n / 10);
    }
  }

  /** Spelling the value of a digit string gives it back, unless it has a
      redundant leading zero. */
  lemma {:induction false} DecimalParse(s: string)
    requires |s| >= 1 && AllDigits(s)
    requires s[0] == '0' ==> |s| == 1
    ensures Decimal(ParseDigits(s)) == s
    decreases |s|
  {
    var last := s[|s| - 1];
    DigitCharOfValue(last);
    if |s| > 1 {
      var front := s[..|s| - 1];
      DecimalParse(front);
      var v := ParseDigits(front);
      assert v != 0 by {
        assert Decimal(v)[0] == s[0];
      }
      var n := ParseDigits(s);
      assert n / 10 == v && n % 10 == DigitValue(last);
      assert s == front + [last];
    }
  }

  /** Four-digit numbers spell with four digits. */
  lemma DecimalLength(n: nat)
    requires 1000 <= n <= 9999
    ensures |Decimal(n)| == 4
  {
    assert |Decimal(n / 10)| == 3 by {
      assert |Decimal(n / 100)| == 2;
    }
  }

  /** `ToString("D2")`: at least two digits, zero-padded on the left. */
  function D2(n: nat): string
  {
    if n < 10 then "0" + Decimal(n) else Decimal(n)
  }

  /** Below 100, `D2` gives exactly the tens digit and the units digit. */
  lemma D2Digits(n: nat)
    requires n < 100
    ensures D2(n) == [DigitChar(n / 10), DigitChar(n % 10)]
    ensures AllDigits(D2(n)) && ParseDigits(D2(n)) == n
  {
    if n >= 10 {
      assert Decimal(n / 10) == [DigitChar(n / 10)];
    }
    var s := D2(n);
    assert s[..1] == [DigitChar(n / 10)];
    assert ParseDigits(s[..1]) == n / 10;
  }

  /** Every two-character digit string is the `D2` of its value. */
  lemma D2Parse(s: string)
    requires |s| == 2 && AllDigits(s)
    ensures ParseDigits(s) < 100 && D2(ParseDigits(s)) == s
  {
    var n := ParseDigits(s);
    assert s[..1] == [s[0]];
    assert ParseDigits(s[..1]) == DigitValue(s[0]);
    assert n == 10 * DigitValue(s[0]) + DigitValue(s[1]);
    DigitCharOfValue(s[0]);
    DigitCharOfValue(s[1]);
    D2Digits(n);
    assert n / 10 == DigitValue(s[0]) && n % 10 == DigitValue(s[1]);
  }

  /** A number of the form `100 * c + y`, with `y` below 100, spells as
      the spelling of `c` followed by the two digits of `y`. */
  lemma DecimalHundreds(c: nat, y: nat)
    requires c >= 1 && y < 100
    ensures Decimal(100 * c + y) == Decimal(c) + D2(y)
  {
    var n := 100 * c + y;
    assert n / 10 == 10 * c + y / 10 && n % 10 == y % 10;
    assert (10 * c + y / 10) / 10 == c && (10 * c + y / 10) % 10 == y / 10;
    D2Digits(y);
  }
}

=== FILE: league_table.dfy ===
/** LeagueTableCalculator.CalculateTable (LeagueTableCalculator.cs:5-102):
    aggregate, rank on original points, rank on new points, return the
    second ranking. */
module LeagueTable {

  import opened Permutations
  import opened MatchRecords
  import opened TeamSeasonStats
  import opened Aggregation
  import opened Ranking

  /** `teamStats.Values.ToList()`: the season's records in first-appearance order. */
  function Roster(ms: seq<Match>): seq<Stats>
  {
    TeamsFacts(ms);
    var m := Tally(ms);
    var ts := Teams(ms);
    seq(|ts|, i requires 0 <= i < |ts| => m[ts[i]])
  }

  /** Each record of the roster is its team's sum over the season, so the
      roster lists the teams in first-appearance order. */
  lemma RosterRows(ms: seq<Match>)
    ensures |Roster(ms)| == |Teams(ms)|
    ensures forall i :: 0 <= i < |Roster(ms)| ==> Roster(ms)[i] == Totals(Teams(ms)[i], ms)
    ensures TeamNames(Roster(ms)) == Teams(ms)
  {
    TeamsFacts(ms);
    var rows := Roster(ms);
    assert forall i :: 0 <= i < |rows| ==> rows[i] == Totals(Teams(ms)[i], ms);
  }

  /** The first pass, `originalSorted` after its position loop. */
  function OriginalTable(ms: seq<Match>): seq<Stats>
  {
    Rank(Roster(ms), Original)
  }

  /** 1-based index of the first row named `t`. */
  function PositionIn(rows: seq<Stats>, t: string): (p: int)
    requires t in TeamNames(rows)
    ensures 1 <= p <= |rows| && rows[p - 1].team == t
    ensures forall j :: 0 <= j < p - 1 ==> rows[j].team != t
  {
    if rows[0].team == t then 1
    else
      assert TeamNames(rows)[1..] == TeamNames(rows[1..]);
      1 + PositionIn(rows[1..], t)
  }

  /** Each row takes the original position written into the row of the
      same team in `ranked`. */
  function CarryPositions(rows: seq<Stats>, ranked: seq<Stats>): (r: seq<Stats>)
    requires forall i :: 0 <= i < |rows| ==> rows[i].team in TeamNames(ranked)
    ensures AlikeRows(r, rows)
  {
    seq(|rows|, i requires 0 <= i < |rows| =>
      rows[i].(originalPosition := ranked[PositionIn(ranked, rows[i].team) - 1].originalPosition))
  }

  lemma RankKeepsNames(rows: seq<Stats>, rule: Rule)
    ensures TeamNames(Rank(rows, rule)) == TeamNames(Sort(rows, rule))
    ensures forall i :: 0 <= i < |rows| ==> rows[i].team in TeamNames(Rank(rows, rule))
  {
    AlikeNames(Rank(rows, rule), Sort(rows, rule));
    SortKeepsNames(rows, rule);
    assert forall i :: 0 <= i < |rows| ==> TeamNames(rows)[i] == rows[i].team;
  }

  /** The `teams` list between the passes: the records are shared with
      `originalSorted`, so each now carries the original position the first
      position loop wrote into it. */
  function AfterFirstPass(ms: seq<Match>): (rows: seq<Stats>)
    ensures AlikeRows(rows, Roster(ms))
  {
    RankKeepsNames(Roster(ms), Original);
    CarryPositions(Roster(ms), OriginalTable(ms))
  }

  /** The returned list: the second pass over `teams`, on new points. The
      season label is accepted and not used. */
  function CalculateTable(ms: seq<Match>, season: string): (table: seq<Stats>)
    ensures |table| == |Teams(ms)|
    ensures forall i :: 0 <= i < |table| ==> table[i].newPosition == i + 1
    ensures Ranked(table, New)
  {
    var rows := AfterFirstPass(ms);
    AssignPositionsKeeps(Sort(rows, New), New);
    Rank(rows, New)
  }

  // ---------------------------------------------------------------------------
  // Which rows the table holds.

  /** The second pass orders the teams exactly as ranking the bare records
      on new points would: nothing the first pass wrote reaches it. */
  lemma SecondPassIgnoresFirst(ms: seq<Match>, season: string)
    ensures AlikeRows(CalculateTable(ms, season), Sort(Roster(ms), New))
  {
    SortAlike(AfterFirstPass(ms), Roster(ms), New);
  }

  lemma TableDistinct(ms: seq<Match>, season: string)
    ensures DistinctTeams(CalculateTable(ms, season))
  {
    var roster := Roster(ms);
    RosterRows(ms);
    TeamsFacts(ms);
    assert DistinctTeams(roster) by {
      assert forall i :: 0 <= i < |roster| ==> TeamNames(roster)[i] == roster[i].team;
    }
    SortDistinct(roster, New);
    SecondPassIgnoresFirst(ms, season);
    AlikeDistinct(CalculateTable(ms, season), Sort(roster, New));
  }

  lemma TableNames(ms: seq<Match>, season: string)
    ensures forall t :: t in TeamNames(CalculateTable(ms, season)) <==> t in Participants(ms)
  {
    var roster := Roster(ms);
    RosterRows(ms);
    TeamsFacts(ms);
    SortKeepsNames(roster, New);
    SecondPassIgnoresFirst(ms, season);
    AlikeNames(CalculateTable(ms, season), Sort(roster, New));
  }

  /** One row per participant: names are distinct, a team has a row exactly
      when it played, and a season without matches gives an empty table. */
  lemma TableTeams(ms: seq<Match>, season: string)
    ensures DistinctTeams(CalculateTable(ms, season))
    ensures forall t :: t in TeamNames(CalculateTable(ms, season)) <==> t in Participants(ms)
    ensures |ms| == 0 ==> CalculateTable(ms, season) == []
  {
    TableDistinct(ms, season);
    TableNames(ms, season);
    TeamsFacts(ms);
  }

  /** The row holds exactly its team's sums over `ms`, positions apart. */
  predicate Summed(x: Stats, ms: seq<Match>)
  {
    Alike(x, Totals(x.team, ms))
  }

  lemma {:induction false} SortSummed(rows: seq<Stats>, rule: Rule, ms: seq<Match>)
    requires forall i :: 0 <= i < |rows| ==> Summed(rows[i], ms)
    ensures forall i :: 0 <= i < |Sort(rows, rule)| ==> Summed(Sort(rows, rule)[i], ms)
  {
    var sorted := Sort(rows, rule);
    forall i | 0 <= i < |sorted| ensures Summed(sorted[i], ms) {
      assert sorted[i] in rows;
      var k :| 0 <= k < |rows| && rows[k] == sorted[i];
    }
  }

  lemma AlikeSummed(a: seq<Stats>, b: seq<Stats>, ms: seq<Match>)
    requires AlikeRows(a, b)
    requires forall i :: 0 <= i < |b| ==> Summed(b[i], ms)
    ensures forall i :: 0 <= i < |a| ==> Summed(a[i], ms)
  {
    forall i | 0 <= i < |a| ensures Summed(a[i], ms) {
      assert Alike(a[i], b[i]) && Summed(b[i], ms);
    }
  }

  /** Every row holds exactly its team's sums over the season's matches:
      apart from the two positions it equals `Totals(team, ms)`. */
  lemma TableRecords(ms: seq<Match>, season: string)
    ensures forall i :: 0 <= i < |CalculateTable(ms, season)| ==> Summed(CalculateTable(ms, season)[i], ms)
  {
    var roster := Roster(ms);
    RosterRows(ms);
    assert forall i :: 0 <= i < |roster| ==> Summed(roster[i], ms);
    SortSummed(roster, New, ms);
    SecondPassIgnoresFirst(ms, season);
    AlikeSummed(CalculateTable(ms, season), Sort(roster, New), ms);
  }

  /** Each row's counters obey the per-team invariants: played counts its
      sides, results add up to at most played (exactly, when every result
      code is H, A or D), points are 3 per win and 1 per draw, and the new
      points lie between zero and the original points, equal exactly when
      the team had no goalless draw. */
  lemma TableRowFacts(ms: seq<Match>, season: string, i: nat)
    requires i < |CalculateTable(ms, season)|
    ensures var s := CalculateTable(ms, season)[i];
      && s.played == Appearances(s.team, ms)
      && (NoSelfMatches(ms) ==> s.played == MatchesInvolving(s.team, ms))
      && Consistent(s)
      && (AllKnownResults(ms) ==> Decided(s))
      && 0 <= s.NewPoints() <= s.originalPoints
      && (s.NewPoints() == s.originalPoints <==> s.zeroZeroDraws == 0)
  {
    var s := CalculateTable(ms, season)[i];
    TableRecords(ms, season);
    assert Summed(s, ms);
    TotalsFacts(s.team, ms);
    ConsistentPoints(s);
  }

  // ---------------------------------------------------------------------------
  // Order and positions.

  /** The table is ranked on (new points, GD, GF), the row at index i has new
      position i + 1, and teams tied on all three keys keep their
      first-appearance order. */
  lemma TableOrder(ms: seq<Match>, season: string)
    ensures Ranked(CalculateTable(ms, season), New)
    ensures forall i :: 0 <= i < |CalculateTable(ms, season)| ==> CalculateTable(ms, season)[i].newPosition == i + 1
    ensures forall k :: TeamNames(WithKey(CalculateTable(ms, season), New, k))
                     == TeamNames(WithKey(Roster(ms), New, k))
  {
    var table := CalculateTable(ms, season);
    var sorted := Sort(Roster(ms), New);
    SecondPassIgnoresFirst(ms, season);
    forall k ensures TeamNames(WithKey(table, New, k)) == TeamNames(WithKey(Roster(ms), New, k)) {
      WithKeyAlike(table, sorted, New, k);
      AlikeNames(WithKey(table, New, k), WithKey(sorted, New, k));
    }
  }

  /** The first pass numbers its rows by index. */
  lemma OriginalNumbered(ms: seq<Match>)
    ensures |OriginalTable(ms)| == |Teams(ms)|
    ensures forall i :: 0 <= i < |OriginalTable(ms)| ==> OriginalTable(ms)[i].originalPosition == i + 1
  {
    RosterRows(ms);
    AssignPositionsKeeps(Sort(Roster(ms), Original), Original);
  }

  /** The first pass is ranked on (original points, GD, GF), numbered by
      index, and teams tied on all three keys keep their first-appearance
      order. */
  lemma OriginalTableOrder(ms: seq<Match>)
    ensures Ranked(OriginalTable(ms), Original)
    ensures |OriginalTable(ms)| == |Teams(ms)|
    ensures forall i :: 0 <= i < |OriginalTable(ms)| ==> OriginalTable(ms)[i].originalPosition == i + 1
    ensures forall k :: TeamNames(WithKey(OriginalTable(ms), Original, k))
                     == TeamNames(WithKey(Roster(ms), Original, k))
  {
    var orig := OriginalTable(ms);
    var sortedOrig := Sort(Roster(ms), Original);
    OriginalNumbered(ms);
    AlikeRanked(orig, sortedOrig, Original);
    forall k ensures TeamNames(WithKey(orig, Original, k)) == TeamNames(WithKey(Roster(ms), Original, k)) {
      WithKeyAlike(orig, sortedOrig, Original, k);
      AlikeNames(WithKey(orig, Original, k), WithKey(sortedOrig, Original, k));
    }
  }

  /** The row's original position is the one `ranked` holds for its team. */
  predicate Carries(x: Stats, ranked: seq<Stats>)
  {
    x.team in TeamNames(ranked) && x.originalPosition == ranked[PositionIn(ranked, x.team) - 1].originalPosition
  }

  /** The row's original position points at its own team in `ranked`. */
  predicate PointsAt(x: Stats, ranked: seq<Stats>)
  {
    1 <= x.originalPosition <= |ranked| && ranked[x.originalPosition - 1].team == x.team
  }

  lemma CarryPositionsCarries(rows: seq<Stats>, ranked: seq<Stats>)
    requires forall i :: 0 <= i < |rows| ==> rows[i].team in TeamNames(ranked)
    ensures forall i :: 0 <= i < |rows| ==> Carries(CarryPositions(rows, ranked)[i], ranked)
  {
  }

  lemma {:induction false} SortCarries(rows: seq<Stats>, rule: Rule, ranked: seq<Stats>)
    requires forall i :: 0 <= i < |rows| ==> Carries(rows[i], ranked)
    ensures forall i :: 0 <= i < |Sort(rows, rule)| ==> Carries(Sort(rows, rule)[i], ranked)
  {
    var sorted := Sort(rows, rule);
    forall i | 0 <= i < |sorted| ensures Carries(sorted[i], ranked) {
      assert sorted[i] in rows;
      var k :| 0 <= k < |rows| && rows[k] == sorted[i];
    }
  }

  /** The second pass keeps what the first carried: each of its rows still
      holds the original position of its team. */
  lemma RankCarried(rows: seq<Stats>, ranked: seq<Stats>)
    requires forall i :: 0 <= i < |rows| ==> rows[i].team in TeamNames(ranked)
    ensures forall i :: 0 <= i < |Rank(CarryPositions(rows, ranked), New)| ==>
              Carries(Rank(CarryPositions(rows, ranked), New)[i], ranked)
  {
    var carried := CarryPositions(rows, ranked);
    CarryPositionsCarries(rows, ranked);
    SortCarries(carried, New, ranked);
    var sorted := Sort(carried, New);
    AssignPositionsKeeps(sorted, New);
    var r := Rank(carried, New);
    forall i | 0 <= i < |r| ensures Carries(r[i], ranked) {
      assert Alike(r[i], sorted[i]) && Carries(sorted[i], ranked);
    }
  }

  lemma CarriedPoints(x: Stats, ranked: seq<Stats>)
    requires Carries(x, ranked)
    requires forall j :: 0 <= j < |ranked| ==> ranked[j].originalPosition == j + 1
    ensures PointsAt(x, ranked)
  {
  }

  lemma CarriedPointers(rows: seq<Stats>, ranked: seq<Stats>)
    requires forall i :: 0 <= i < |rows| ==> rows[i].team in TeamNames(ranked)
    requires forall j :: 0 <= j < |ranked| ==> ranked[j].originalPosition == j + 1
    ensures forall i :: 0 <= i < |Rank(CarryPositions(rows, ranked), New)| ==>
              PointsAt(Rank(CarryPositions(rows, ranked), New)[i], ranked)
  {
    RankCarried(rows, ranked);
    var r := Rank(CarryPositions(rows, ranked), New);
    forall i | 0 <= i < |r| ensures PointsAt(r[i], ranked) {
      CarriedPoints(r[i], ranked);
    }
  }

  /** The original position of every returned row is that team's place in
      the first pass. */
  lemma OriginalPositions(ms: seq<Match>, season: string)
    ensures |OriginalTable(ms)| == |CalculateTable(ms, season)|
    ensures forall i :: 0 <= i < |CalculateTable(ms, season)| ==>
              PointsAt(CalculateTable(ms, season)[i], OriginalTable(ms))
  {
    OriginalNumbered(ms);
    RankKeepsNames(Roster(ms), Original);
    CarriedPointers(Roster(ms), OriginalTable(ms));
  }

  /** Rows with distinct names, each pointing by position at its own name in
      a list as long as the rows, carry the positions 1..N in some order. */
  lemma PointersArePermutation(rows: seq<Stats>, ranked: seq<Stats>)
    requires DistinctTeams(rows) && |ranked| == |rows|
    requires forall i :: 0 <= i < |rows| ==> PointsAt(rows[i], ranked)
    ensures multiset(ColumnOf(rows, OriginalPosition)) == multiset(Iota(|rows|))
  {
    var n := |rows|;
    var col := ColumnOf(rows, OriginalPosition);
    assert forall i :: 0 <= i < n ==> 1 <= col[i] <= n;
    forall i, j | 0 <= i < j < n ensures col[i] != col[j] {
      assert PointsAt(rows[i], ranked) && PointsAt(rows[j], ranked);
      assert ranked[col[i] - 1].team == rows[i].team != rows[j].team == ranked[col[j] - 1].team;
    }
    DistinctInRangeIsPermutation(col, n);
  }

  lemma NumberedColumn(rows: seq<Stats>)
    requires forall i :: 0 <= i < |rows| ==> rows[i].newPosition == i + 1
    ensures ColumnOf(rows, NewPosition) == Iota(|rows|)
  {
  }

  /** Both position columns are arrangements of 1..N: the new positions in
      order, the original positions in some order. */
  lemma PositionsArePermutations(ms: seq<Match>, season: string)
    ensures ColumnOf(CalculateTable(ms, season), NewPosition) == Iota(|CalculateTable(ms, season)|)
    ensures multiset(ColumnOf(CalculateTable(ms, season), OriginalPosition))
            == multiset(Iota(|CalculateTable(ms, season)|))
  {
    var table := CalculateTable(ms, season);
    OriginalPositions(ms, season);
    TableDistinct(ms, season);
    PointersArePermutation(table, OriginalTable(ms));
    NumberedColumn(table);
  }

  /** The position changes of a season cancel out. */
  lemma PositionChangesCancel(ms: seq<Match>, season: string)
    ensures Total(CalculateTable(ms, season), PositionChange) == 0
  {
    var table := CalculateTable(ms, season);
    PositionsArePermutations(ms, season);
    TotalPositionChange(table);
    TotalIsColumnSum(table, OriginalPosition);
    TotalIsColumnSum(table, NewPosition);
    SumPermutation(ColumnOf(table, OriginalPosition), Iota(|table|));
  }

  // ---------------------------------------------------------------------------
  // Column totals over a season.

  /** Sum over teams `ts` of what the season contributes to each. */
  function TeamSum(ts: seq<string>, ms: seq<Match>, c: Column): int
  {
    if |ts| == 0 then 0 else Get(Contributions(ts[0], ms), c) + TeamSum(ts[1..], ms, c)
  }

  /** Sum over teams `ts` of what one match contributes to each. */
  function MatchShare(ts: seq<string>, x: Match, c: Column): int
  {
    if |ts| == 0 then 0 else Share(ts[0], x, c) + MatchShare(ts[1..], x, c)
  }

  /** What the matches add to column `c`, home side plus away side. */
  function MatchSum(ms: seq<Match>, c: Column): int
  {
    if |ms| == 0 then 0 else Get(HomeDelta(ms[0]), c) + Get(AwayDelta(ms[0]), c) + MatchSum(ms[1..], c)
  }

  lemma {:induction false} MatchShareIsSides(ts: seq<string>, x: Match, c: Column)
    requires Distinct(ts)
    ensures MatchShare(ts, x, c)
            == (if x.homeTeam in ts then Get(HomeDelta(x), c) else 0)
             + (if x.awayTeam in ts then Get(AwayDelta(x), c) else 0)
  {
    if |ts| > 0 {
      var rest := ts[1..];
      assert Distinct(rest);
      MatchShareIsSides(rest, x, c);
      assert ts[0] !in rest;
      assert forall t :: t in ts <==> t == ts[0] || t in rest by {
        assert ts == [ts[0]] + rest;
      }
    }
  }

  lemma {:induction false} TeamSumCons(ts: seq<string>, ms: seq<Match>, c: Column)
    requires |ms| > 0 && c.IsCounter()
    ensures TeamSum(ts, ms, c) == MatchShare(ts, ms[0], c) + TeamSum(ts, ms[1..], c)
  {
    if |ts| > 0 {
      TeamSumCons(ts[1..], ms, c);
      AddGet(Contribution(ts[0], ms[0]), Contributions(ts[0], ms[1..]), c);
      ContributionGet(ts[0], ms[0], c);
    }
  }

  /** Summing per team equals summing per match, when every participant is
      listed once. */
  lemma {:induction false} TeamSumIsMatchSum(ts: seq<string>, ms: seq<Match>, c: Column)
    requires Distinct(ts) && Participants(ms) <= (set t | t in ts)
    requires c.IsCounter()
    ensures TeamSum(ts, ms, c) == MatchSum(ms, c)
    decreases |ms|
  {
    if |ms| == 0 {
      assert TeamSum(ts, ms, c) == 0 by { TeamSumEmpty(ts, ms, c); }
    } else {
      ParticipantsCons(ms);
      TeamSumCons(ts, ms, c);
      MatchShareIsSides(ts, ms[0], c);
      TeamSumIsMatchSum(ts, ms[1..], c);
    }
  }

  lemma {:induction false} TeamSumEmpty(ts: seq<string>, ms: seq<Match>, c: Column)
    requires |ms| == 0
    ensures TeamSum(ts, ms, c) == 0
  {
    if |ts| > 0 {
      TeamSumEmpty(ts[1..], ms, c);
    }
  }

  lemma {:induction false} RosterTotal(rows: seq<Stats>, ts: seq<string>, ms: seq<Match>, c: Column)
    requires |rows| == |ts| && c.IsCounter()
    requires forall i :: 0 <= i < |rows| ==> rows[i] == Totals(ts[i], ms)
    ensures Total(rows, c) == TeamSum(ts, ms, c)
  {
    if |rows| > 0 {
      AddGet(Fresh(ts[0]), Contributions(ts[0], ms), c);
      RosterTotal(rows[1..], ts[1..], ms, c);
    }
  }

  /** A counter column summed over the table is that column summed over
      the matches. */
  lemma TableTotal(ms: seq<Match>, season: string, c: Column)
    requires c.IsCounter()
    ensures Total(CalculateTable(ms, season), c) == MatchSum(ms, c)
  {
    var roster := Roster(ms);
    RosterRows(ms);
    SecondPassIgnoresFirst(ms, season);
    AlikeTotals(CalculateTable(ms, season), Sort(roster, New), c);
    SortTotal(roster, New, c);
    RosterTotal(roster, Teams(ms), ms, c);
    TeamsFacts(ms);
    TeamSumIsMatchSum(Teams(ms), ms, c);
  }

  lemma {:induction false} MatchSums(ms: seq<Match>)
    ensures MatchSum(ms, Played) == 2 * |ms|
    ensures MatchSum(ms, GoalsFor) == GoalTotal(ms)
    ensures MatchSum(ms, GoalsAgainst) == GoalTotal(ms)
    ensures MatchSum(ms, GoalDifference) == 0
    ensures MatchSum(ms, OriginalPoints) == 3 * (ResultCount(ms, HomeWin) + ResultCount(ms, AwayWin)) + 2 * ResultCount(ms, Draw)
    ensures MatchSum(ms, ZeroZeroDraws) == 2 * ZeroZeroCount(ms)
  {
    if |ms| > 0 {
      MatchSums(ms[1..]);
    }
  }

  /** Season-wide balances: every match is played by two sides, goals for
      and against both total the goals scored (so goal differences sum to
      zero), points total 3 per decided match and 2 per draw, and each
      goalless draw is counted once per side. */
  lemma TableBalances(ms: seq<Match>, season: string)
    ensures Total(CalculateTable(ms, season), Played) == 2 * |ms|
    ensures Total(CalculateTable(ms, season), GoalsFor) == GoalTotal(ms)
    ensures Total(CalculateTable(ms, season), GoalsAgainst) == GoalTotal(ms)
    ensures Total(CalculateTable(ms, season), GoalDifference) == 0
    ensures Total(CalculateTable(ms, season), OriginalPoints)
            == 3 * (ResultCount(ms, HomeWin) + ResultCount(ms, AwayWin)) + 2 * ResultCount(ms, Draw)
    ensures Total(CalculateTable(ms, season), ZeroZeroDraws) == 2 * ZeroZeroCount(ms)
  {
    MatchSums(ms);
    TableTotal(ms, season, Played);
    TableTotal(ms, season, GoalsFor);
    TableTotal(ms, season, GoalsAgainst);
    TableTotal(ms, season, GoalDifference);
    TableTotal(ms, season, OriginalPoints);
    TableTotal(ms, season, ZeroZeroDraws);
  }
}

=== FILE: match_record.dfy ===
/** One row of a season's results feed (Models/MatchRecord.cs). */
module MatchRecords {

  /** A played match. `ftr` is the feed's full-time result code; it is kept
      as a string because nothing restricts it to "H", "A" or "D", and goal
      counts are plain integers because nothing validates them. */
  datatype Match = Match(
    date: string,
    homeTeam: string,
    awayTeam: string,
    fthg: int,
    ftag: int,
    ftr: string)

  /** The full-time result, as the standings read the result code. */
  datatype Outcome = HomeWin | AwayWin | Draw | Unrecognised

  /** Reads the result code by comparing it with "H", "A" and "D" in turn;
      any other code is unrecognised. */
  function ResultOf(x: Match): Outcome
  {
    if x.ftr == "H" then HomeWin
    else if x.ftr == "A" then AwayWin
    else if x.ftr == "D" then Draw
    else Unrecognised
  }

  /** A result is recognised exactly when the code is one of the three
      strings the standings compare it with. */
  lemma ResultOfCode(x: Match)
    ensures ResultOf(x) == HomeWin <==> x.ftr == "H"
    ensures ResultOf(x) == AwayWin <==> x.ftr == "A"
    ensures ResultOf(x) == Draw <==> x.ftr == "D"
    ensures ResultOf(x) == Unrecognised <==> x.ftr != "H" && x.ftr != "A" && x.ftr != "D"
  {
  }

  /** A goalless draw: both scores zero and the result code "D". */
  predicate IsZeroZeroDraw(x: Match)
  {
    x.fthg == 0 && x.ftag == 0 && ResultOf(x) == Draw
  }

  /** True when the result code is one of the three the standings know. */
  predicate HasKnownResult(x: Match)
  {
    ResultOf(x) != Unrecognised
  }

  /** Every team that plays in some match, home or away. */
  function Participants(ms: seq<Match>): set<string>
  {
    (set x | x in ms :: x.homeTeam) + (set x | x in ms :: x.awayTeam)
  }

  /** Number of matches with result `o`. */
  function ResultCount(ms: seq<Match>, o: Outcome): nat
  {
    if |ms| == 0 then 0
    else (if ResultOf(ms[0]) == o then 1 else 0) + ResultCount(ms[1..], o)
  }

  /** Number of goalless draws in the match list. */
  function ZeroZeroCount(ms: seq<Match>): nat
  {
    if |ms| == 0 then 0
    else (if IsZeroZeroDraw(ms[0]) then 1 else 0) + ZeroZeroCount(ms[1..])
  }

  /** All goals scored in the match list, both sides. */
  function GoalTotal(ms: seq<Match>): int
  {
    if |ms| == 0 then 0 else ms[0].fthg + ms[0].ftag + GoalTotal(ms[1..])
  }

  /** Number of sides `t` takes in the list: a match counts once when `t`
      is home or away, and twice when it is both. */
  function Appearances(t: string, ms: seq<Match>): nat
  {
    if |ms| == 0 then 0
    else (if ms[0].homeTeam == t then 1 else 0) + (if ms[0].awayTeam == t then 1 else 0)
         + Appearances(t, ms[1..])
  }

  /** Number of matches `t` takes part in. */
  function MatchesInvolving(t: string, ms: seq<Match>): nat
  {
    if |ms| == 0 then 0
    else (if ms[0].homeTeam == t || ms[0].awayTeam == t then 1 else 0)
         + MatchesInvolving(t, ms[1..])
  }

  predicate NoSelfMatches(ms: seq<Match>)
  {
    forall i :: 0 <= i < |ms| ==> ms[i].homeTeam != ms[i].awayTeam
  }

  predicate AllKnownResults(ms: seq<Match>)
  {
    forall i :: 0 <= i < |ms| ==> HasKnownResult(ms[i])
  }

  lemma TailFacts(ms: seq<Match>)
    requires |ms| > 0
    ensures NoSelfMatches(ms) ==> NoSelfMatches(ms[1..]) && ms[0].homeTeam != ms[0].awayTeam
    ensures AllKnownResults(ms) ==> AllKnownResults(ms[1..]) && HasKnownResult(ms[0])
  {
    assert forall i :: 0 <= i < |ms| - 1 ==> ms[1..][i] == ms[i + 1];
  }

  /** Without self-matches, every match `t` takes part in is one side. */
  lemma {:induction false} AppearancesWithoutSelfMatches(t: string, ms: seq<Match>)
    requires NoSelfMatches(ms)
    ensures Appearances(t, ms) == MatchesInvolving(t, ms)
  {
    if |ms| > 0 {
      TailFacts(ms);
      AppearancesWithoutSelfMatches(t, ms[1..]);
    }
  }
}

=== FILE: permutations.dfy ===
/** Sums and permutations of integer lists, used for the position columns. */
module Permutations {

  function SumInts(s: seq<int>): int
  {
    if |s| == 0 then 0 else s[0] + SumInts(s[1..])
  }

  /** The positions 1, 2, ..., n. */
  function Iota(n: nat): (s: seq<int>)
    ensures |s| == n
    ensures forall i :: 0 <= i < n ==> s[i] == i + 1
  {
    seq(n, i requires 0 <= i < n => i + 1)
  }

  /** No element is listed twice. */
  predicate Distinct<T(==)>(s: seq<T>)
  {
    forall i, j :: 0 <= i < j < |s| ==> s[i] != s[j]
  }

  lemma {:induction false} SumConcat(a: seq<int>, b: seq<int>)
    ensures SumInts(a + b) == SumInts(a) + SumInts(b)
  {
    if |a| > 0 {
      assert (a + b)[1..] == a[1..] + b;
      SumConcat(a[1..], b);
    } else {
      assert a + b == b;
    }
  }

  /** Reordering a list does not change its sum. */
  lemma {:induction false} SumPermutation(a: seq<int>, b: seq<int>)
    requires multiset(a) == multiset(b)
    ensures SumInts(a) == SumInts(b)
    decreases |a|
  {
    if |a| == 0 {
      assert |b| == |multiset(b)| == 0;
    } else {
      var x := a[0];
      assert x in multiset(b);
      var k :| 0 <= k < |b| && b[k] == x;
      var front, back := b[..k], b[k + 1..];
      assert b == front + ([x] + back);
      RemoveOneSum(front, x, back);
      assert a == [x] + a[1..];
      assert multiset(a) == multiset{x} + multiset(a[1..]);
      assert multiset(b) == multiset(front) + multiset{x} + multiset(back) by {
        assert b == front + [x] + back;
      }
      CancelOne(multiset(a[1..]), multiset(front), multiset(back), x);
      SumPermutation(a[1..], front + back);
    }
  }

  /** Taking out the element between `front` and `back` lowers the sum by it. */
  lemma RemoveOneSum(front: seq<int>, x: int, back: seq<int>)
    ensures SumInts(front + ([x] + back)) == x + SumInts(front + back)
  {
    SumConcat(front, [x] + back);
    assert ([x] + back)[1..] == back;
    SumConcat(front, back);
  }

  lemma CancelOne(p: multiset<int>, front: multiset<int>, back: multiset<int>, x: int)
    requires multiset{x} + p == front + multiset{x} + back
    ensures p == front + back
  {
    forall y ensures p[y] == (front + back)[y] {
      assert (multiset{x} + p)[y] == (front + multiset{x} + back)[y];
    }
  }

  lemma {:induction false} DistinctMultiplicity(s: seq<int>, x: int)
    requires Distinct(s)
    ensures multiset(s)[x] == if x in s then 1 else 0
  {
    if |s| > 0 {
      assert s == [s[0]] + s[1..];
      assert Distinct(s[1..]);
      assert s[0] !in s[1..];
      DistinctMultiplicity(s[1..], x);
    }
  }

  lemma {:induction false} DistinctCardinality(s: seq<int>)
    requires Distinct(s)
    ensures |set x | x in s| == |s|
  {
    if |s| > 0 {
      assert Distinct(s[1..]);
      DistinctCardinality(s[1..]);
      assert (set x | x in s) == {s[0]} + (set x | x in s[1..]);
      assert s[0] !in (set x | x in s[1..]);
    } else {
      assert (set x | x in s) == {};
    }
  }

  lemma SubsetOfSameSize(a: set<int>, b: set<int>)
    requires a <= b && |a| == |b|
    ensures a == b
  {
    assert a * b == a;
    assert |b - a| == 0;
    assert b - a == {};
    assert b <= a;
  }

  /** n distinct values drawn from 1..n are exactly 1..n, in some order. */
  lemma DistinctInRangeIsPermutation(s: seq<int>, n: nat)
    requires |s| == n
    requires forall i :: 0 <= i < n ==> 1 <= s[i] <= n
    requires Distinct(s)
    ensures multiset(s) == multiset(Iota(n))
  {
    var values := set x | x in s;
    var range := set x | x in Iota(n);
    forall i | 0 <= i < n ensures s[i] in range {
      assert Iota(n)[s[i] - 1] == s[i];
    }
    DistinctCardinality(s);
    DistinctCardinality(Iota(n));
    SubsetOfSameSize(values, range);
    forall x ensures multiset(s)[x] == multiset(Iota(n))[x] {
      DistinctMultiplicity(s, x);
      DistinctMultiplicity(Iota(n), x);
      assert x in Iota(n) <==> 1 <= x <= n by {
        if 1 <= x <= n { assert Iota(n)[x - 1] == x; }
      }
      assert x in s <==> x in values;
    }
  }
}

=== FILE: program.dfy ===
/** The command-line program's helpers (Program.cs): the list of season
    codes, reading the codes from the arguments, turning a code into a
    season label, and turning a table row into an exported result row. */
module Program {

  import opened Digits
  import opened Text
  import opened MatchRecords
  import opened TeamSeasonStats
  import opened Ranking
  import opened Aggregation
  import opened LeagueTable
  import opened SeasonResults

  datatype Option<T> = None | Some(value: T)

  // ---------------------------------------------------------------------------
  // Season codes: "9394" is the season 1993-94.

  const FirstYear: nat := 1993
  const LastYear: nat := 2023

  /** The code of the season starting in `year`: the last two digits of
      the year and of the year after, each zero-padded. */
  function SeasonCode(year: nat): string
  {
    D2(year % 100) + D2((year + 1) % 100)
  }

  /** A season code is four digits. */
  lemma SeasonCodeDigits(year: nat)
    ensures |SeasonCode(year)| == 4 && AllDigits(SeasonCode(year))
    ensures SeasonCode(year)[..2] == D2(year % 100) && SeasonCode(year)[2..] == D2((year + 1) % 100)
  {
    D2Digits(year % 100);
    D2Digits((year + 1) % 100);
  }

  /** `GetAllSeasonCodes`: the code of every season from 1993-94 through
      2023-24, in order. */
  function AllSeasonCodes(): (codes: seq<string>)
  {
    seq(LastYear - FirstYear + 1, i requires 0 <= i <= LastYear - FirstYear => SeasonCode(FirstYear + i))
  }

  // ---------------------------------------------------------------------------
  // Season labels.

  /** White space that `int.Parse` skips at either end of a number. */
  predicate IsNumberWhite(c: char)
  {
    c == ' ' || ('\t' <= c <= '\r')
  }

  /** `int.Parse` of a two-character string under the invariant culture:
      two digits; or one digit with white space or a sign before it, or
      with white space or a NUL after it. Anything else throws. */
  function ParseTwo(s: string): (v: Option<int>)
    requires |s| == 2
    ensures v.Some? ==> -9 <= v.value <= 99
  {
    var a, b := s[0], s[1];
    if IsDigit(a) && IsDigit(b) then Some(10 * DigitValue(a) + DigitValue(b))
    else if IsDigit(a) && (IsNumberWhite(b) || b == '\0') then Some(DigitValue(a))
    else if (IsNumberWhite(a) || a == '+') && IsDigit(b) then Some(DigitValue(b))
    else if a == '-' && IsDigit(b) then Some(0 - DigitValue(b) as int)
    else None
  }

  /** The parse of two digits is their value, and a string with no digit
      in it does not parse. */
  lemma ParseTwoDigits(s: string)
    requires |s| == 2
    ensures AllDigits(s) ==> ParseTwo(s) == Some(ParseDigits(s))
    ensures !IsDigit(s[0]) && !IsDigit(s[1]) ==> ParseTwo(s) == None
    ensures ParseTwo(s).Some? && ParseTwo(s).value < 0 ==> s[0] == '-'
  {
    assert s[..1] == [s[0]];
    if AllDigits(s) {
      assert ParseDigits(s[..1]) == DigitValue(s[0]);
    }
  }

  /** The century rule: two-digit years below 50 are in the 2000s. */
  function FullYear(yy: int): int
  {
    if yy < 50 then 2000 + yy else 1900 + yy
  }

  /** `FormatSeason`: a four-character code becomes "<first year>-<last
      two digits of the second year>"; any other length is returned as it
      is; `None` stands for the parse failure that throws. */
  function FormatSeason(code: string): Option<string>
  {
    if |code| != 4 then Some(code)
    else
      match (ParseTwo(code[..2]), ParseTwo(code[2..]))
      case (Some(y1), Some(y2)) =>
        assert FullYear(y1) > 0 && FullYear(y2) > 0;
        Some(Decimal(FullYear(y1)) + "-" + D2(FullYear(y2) % 100))
      case _ => None
  }

  /** The code a label came from: the last two digits of its first year
      followed by its last two characters. */
  function CodeOfLabel(name: string): string
    requires |name| == 7
  {
    name[2..4] + name[5..]
  }

  /** A code of any length but four is its own label. */
  lemma FormatSeasonOtherLengths(code: string)
    requires |code| != 4
    ensures FormatSeason(code) == Some(code)
  {
  }

  /** A four-digit code's label spells the two halves' full years. */
  lemma FormatSeasonValue(code: string)
    requires |code| == 4 && AllDigits(code)
    ensures FormatSeason(code)
      == Some(Decimal(FullYear(ParseDigits(code[..2]))) + "-" + D2(FullYear(ParseDigits(code[2..])) % 100))
  {
    ParseTwoDigits(code[..2]);
    ParseTwoDigits(code[2..]);
  }

  /** A four-digit code is labelled "19yy-zz" or "20yy-zz" (the century
      chosen by the first digit), and the code can be read back off the
      label. */
  lemma FormatSeasonDigits(code: string)
    requires |code| == 4 && AllDigits(code)
    ensures FormatSeason(code).Some?
    ensures var name := FormatSeason(code).value;
      && |name| == 7 && name[4] == '-' && AllDigits(name[..4]) && AllDigits(name[5..])
      && name[..2] == (if code[0] < '5' then "20" else "19")
      && CodeOfLabel(name) == code
  {
    var first, second := code[..2], code[2..];
    var century := LabelPrefix(code);
    assert FormatSeason(code) == Some(century + first + "-" + second);
    LabelShape(century, first, second);
    assert code == first + second;
  }

  /** The label of a four-digit code is the century, the code's first two
      digits, a dash and the code's last two digits. */
  lemma LabelPrefix(code: string) returns (century: string)
    requires |code| == 4 && AllDigits(code)
    ensures century == (if code[0] < '5' then "20" else "19")
    ensures FormatSeason(code) == Some(century + code[..2] + "-" + code[2..])
  {
    var first, second := code[..2], code[2..];
    FormatSeasonValue(code);
    D2Parse(first);
    D2Parse(second);
    var y1, y2 := ParseDigits(first), ParseDigits(second);
    CenturyDigit(first);
    assert first[0] == code[0];
    var c := if y1 < 50 then 20 else 19;
    DecimalHundreds(c, y1);
    assert FullYear(y1) == 100 * c + y1;
    LastTwoDigits(y2);
    CenturyNames();
    century := Decimal(c);
  }

  /** The century rule reads the first digit: a two-digit year is below 50
      exactly when its first digit is below '5'. */
  lemma CenturyDigit(s: string)
    requires |s| == 2 && AllDigits(s)
    ensures ParseDigits(s) < 50 <==> s[0] < '5'
  {
    assert s[..1] == [s[0]];
    assert ParseDigits(s[..1]) == DigitValue(s[0]);
  }

  lemma CenturyNames()
    ensures Decimal(20) == "20" && Decimal(19) == "19"
  {
    assert Decimal(2) == "2" && Decimal(1) == "1";
  }

  lemma LabelShape(century: string, first: string, second: string)
    requires |century| == 2 && AllDigits(century) && |first| == 2 && AllDigits(first) && |second| == 2 && AllDigits(second)
    ensures var name := century + first + "-" + second;
      && |name| == 7 && name[4] == '-' && AllDigits(name[..4]) && AllDigits(name[5..])
      && name[..2] == century && CodeOfLabel(name) == first + second
  {
    var name := century + first + "-" + second;
    assert name[..4] == century + first && name[5..] == second && name[2..4] == first;
  }

  /** Seasons starting from 1950 through 2049 get the label "<year>-<next
      year's last two digits>" from their code. */
  lemma SeasonLabel(year: nat)
    requires 1950 <= year <= 2049
    ensures FormatSeason(SeasonCode(year)) == Some(Decimal(year) + "-" + D2((year + 1) % 100))
  {
    var code := SeasonCode(year);
    var y1, y2 := year % 100, (year + 1) % 100;
    SeasonCodeDigits(year);
    D2Digits(y1);
    D2Digits(y2);
    FormatSeasonValue(code);
    assert ParseDigits(code[..2]) == y1;
    assert ParseDigits(code[2..]) == y2;
    CenturyRule(year);
    LastTwoDigits(y2);
  }

  /** The century rule keeps the last two digits. */
  lemma LastTwoDigits(yy: nat)
    requires yy < 100
    ensures FullYear(yy) % 100 == yy
  {
    var c := if yy < 50 then 20 else 19;
    assert FullYear(yy) == 100 * c + yy;
  }

  /** The century rule recovers every year from 1950 through 2049 from its
      last two digits. */
  lemma CenturyRule(year: nat)
    requires 1950 <= year <= 2049
    ensures FullYear(year % 100) == year
  {
    if year < 2000 {
      assert year == 100 * 19 + (year - 1900);
      assert year % 100 == year - 1900;
    } else {
      assert year == 100 * 20 + (year - 2000);
      assert year % 100 == year - 2000;
    }
  }

  lemma TwoDigits(n: nat, tens: char, units: char)
    requires n < 100 && tens == DigitChar(n / 10) && units == DigitChar(n % 10)
    ensures D2(n) == [tens, units]
  {
    D2Digits(n);
  }

  /** The first season's code is "9394" and the last one's "2324". */
  lemma AllSeasonCodesEnds()
    ensures |AllSeasonCodes()| == 31
    ensures AllSeasonCodes()[0] == "9394" && AllSeasonCodes()[30] == "2324"
  {
    assert SeasonCode(1993) == "9394" by {
      TwoDigits(93, '9', '3');
      TwoDigits(94, '9', '4');
    }
    assert SeasonCode(2023) == "2324" by {
      TwoDigits(23, '2', '3');
      TwoDigits(24, '2', '4');
    }
    assert AllSeasonCodes()[0] == SeasonCode(1993);
    assert AllSeasonCodes()[30] == SeasonCode(2023);
  }

  /** Each of the season codes is four digits and is labelled as the season
      starting in 1993 + i. */
  lemma AllSeasonCodesLabelled()
    ensures forall i :: 0 <= i < |AllSeasonCodes()| ==>
      && |AllSeasonCodes()[i]| == 4 && AllDigits(AllSeasonCodes()[i])
      && FormatSeason(AllSeasonCodes()[i]) == Some(Decimal(FirstYear + i) + "-" + D2((FirstYear + i + 1) % 100))
  {
    var codes := AllSeasonCodes();
    forall i | 0 <= i < |codes|
      ensures |codes[i]| == 4 && AllDigits(codes[i])
      ensures FormatSeason(codes[i]) == Some(Decimal(FirstYear + i) + "-" + D2((FirstYear + i + 1) % 100))
    {
      SeasonCodeDigits(FirstYear + i);
      SeasonLabel(FirstYear + i);
    }
  }

  /** No season code is listed twice. */
  lemma AllSeasonCodesDistinct()
    ensures forall i, j :: 0 <= i < j < |AllSeasonCodes()| ==> AllSeasonCodes()[i] != AllSeasonCodes()[j]
  {
    var codes := AllSeasonCodes();
    forall i, j | 0 <= i < j < |codes|
      ensures codes[i] != codes[j]
    {
      var a, b := FirstYear + i, FirstYear + j;
      assert codes[i] == SeasonCode(a) && codes[j] == SeasonCode(b);
      SeasonCodesDiffer(a, b);
    }
  }

  /** Different seasons between 1950 and 2049 have different codes. */
  lemma SeasonCodesDiffer(a: nat, b: nat)
    requires 1950 <= a < b <= 2049
    ensures SeasonCode(a) != SeasonCode(b)
  {
    SeasonLabel(a);
    SeasonLabel(b);
    DecimalLength(a);
    DecimalLength(b);
    ParseDecimal(a);
    ParseDecimal(b);
    var la := Decimal(a) + "-" + D2((a + 1) % 100);
    var lb := Decimal(b) + "-" + D2((b + 1) % 100);
    assert la[..4] == Decimal(a) && lb[..4] == Decimal(b);
    assert la != lb;
  }

  // ---------------------------------------------------------------------------
  // Command-line arguments.

  /** How far the scan of the arguments got: `--all` seen, or the codes
      collected when the arguments ran out. */
  datatype Scan = AllSeasons | Listed(codes: seq<string>)

  /** The argument loop over what is left of the arguments, with the codes
      `acc` collected so far. `--seasons` followed by an argument adds that
      argument's comma-separated entries and skips it; `--all` ends the
      scan; every other argument, and a `--seasons` in the last place, is
      passed over. */
  function ScanArgs(args: seq<string>, acc: seq<string>): Scan
  {
    if |args| == 0 then Listed(acc)
    else if args[0] == "--seasons" && |args| > 1 then ScanArgs(args[2..], acc + SplitEntries(args[1], ','))
    else if args[0] == "--all" then AllSeasons
    else ScanArgs(args[1..], acc)
  }

  /** `ParseSeasonCodes`: the collected codes, or every season when `--all`
      is met or no code was collected. */
  function ParseSeasonCodes(args: seq<string>): seq<string>
  {
    match ScanArgs(args, [])
    case AllSeasons => AllSeasonCodes()
    case Listed(codes) => if |codes| == 0 then AllSeasonCodes() else codes
  }

  /** A code list from the command line: each entry non-empty, trimmed and
      without a comma. */
  predicate CleanCodes(codes: seq<string>)
  {
    forall i :: 0 <= i < |codes| ==> |codes[i]| > 0 && Trimmed(codes[i]) && ',' !in codes[i]
  }

  lemma CleanConcat(a: seq<string>, b: seq<string>)
    requires CleanCodes(a) && CleanCodes(b)
    ensures CleanCodes(a + b)
  {
    forall k | 0 <= k < |a + b|
      ensures |(a + b)[k]| > 0 && Trimmed((a + b)[k]) && ',' !in (a + b)[k]
    {
      if k >= |a| {
        assert (a + b)[k] == b[k - |a|];
      }
    }
  }

  lemma {:induction false} ScanClean(args: seq<string>, acc: seq<string>)
    requires CleanCodes(acc)
    ensures ScanArgs(args, acc).Listed? ==> CleanCodes(ScanArgs(args, acc).codes)
  {
    if |args| > 0 {
      if args[0] == "--seasons" && |args| > 1 {
        SplitEntriesClean(args[1], ',');
        CleanConcat(acc, SplitEntries(args[1], ','));
        ScanClean(args[2..], acc + SplitEntries(args[1], ','));
      } else if args[0] != "--all" {
        ScanClean(args[1..], acc);
      }
    }
  }

  /** The result is never empty: either every season, or a list of clean
      codes. */
  lemma ParseSeasonCodesShape(args: seq<string>)
    ensures |ParseSeasonCodes(args)| > 0
    ensures ParseSeasonCodes(args) == AllSeasonCodes() || CleanCodes(ParseSeasonCodes(args))
  {
    ScanClean(args, []);
  }

  /** Arguments with neither `--seasons` nor `--all` collect nothing. */
  lemma {:induction false} ScanPlain(args: seq<string>, acc: seq<string>)
    requires "--seasons" !in args && "--all" !in args
    ensures ScanArgs(args, acc) == Listed(acc)
  {
    if |args| > 0 {
      assert args[0] in args;
      assert forall a :: a in args[1..] ==> a in args;
      ScanPlain(args[1..], acc);
    }
  }

  /** Without a `--seasons` before it, the first `--all` selects every
      season. */
  lemma {:induction false} ScanToAll(args: seq<string>, k: nat, acc: seq<string>)
    requires k < |args| && args[k] == "--all"
    requires forall j :: 0 <= j < k ==> args[j] != "--seasons"
    ensures ScanArgs(args, acc) == AllSeasons
  {
    if k > 0 {
      assert args[0] != "--seasons";
      if args[0] != "--all" {
        assert forall j :: 0 <= j < k - 1 ==> args[1..][j] == args[j + 1];
        ScanToAll(args[1..], k - 1, acc);
      }
    }
  }

  /** `--all`, with no `--seasons` ahead of it, gives every season. */
  lemma ParseAll(args: seq<string>, k: nat)
    requires k < |args| && args[k] == "--all"
    requires "--seasons" !in args[..k]
    ensures ParseSeasonCodes(args) == AllSeasonCodes()
  {
    forall j | 0 <= j < k
      ensures args[j] != "--seasons"
    {
      assert args[j] == args[..k][j];
    }
    ScanToAll(args, k, []);
  }

  /** `--seasons x` adds the entries of `x` to what was collected and the
      scan goes on after `x`. */
  lemma ScanSeasons(x: string, rest: seq<string>, acc: seq<string>)
    ensures ScanArgs(["--seasons", x] + rest, acc) == ScanArgs(rest, acc + SplitEntries(x, ','))
  {
    var args := ["--seasons", x] + rest;
    assert args[0] == "--seasons" && args[1] == x && args[2..] == rest;
  }

  /** Two `--seasons` flags add up: the second one's entries follow the
      first one's. */
  lemma ParseTwoSeasons(x: string, y: string, rest: seq<string>)
    requires "--seasons" !in rest && "--all" !in rest
    ensures var entries := SplitEntries(x, ',') + SplitEntries(y, ',');
      ParseSeasonCodes(["--seasons", x, "--seasons", y] + rest) == if |entries| == 0 then AllSeasonCodes() else entries
  {
    var tail := ["--seasons", y] + rest;
    assert ["--seasons", x, "--seasons", y] + rest == ["--seasons", x] + tail;
    ScanSeasons(x, tail, []);
    assert [] + SplitEntries(x, ',') == SplitEntries(x, ',');
    ScanSeasons(y, rest, SplitEntries(x, ','));
    ScanPlain(rest, SplitEntries(x, ',') + SplitEntries(y, ','));
  }

  /** An `--all` after `--seasons x` still selects every season: the codes
      collected so far are dropped. */
  lemma ParseAllAfterSeasons(x: string, args: seq<string>, k: nat)
    requires k < |args| && args[k] == "--all"
    requires "--seasons" !in args[..k]
    ensures ParseSeasonCodes(["--seasons", x] + args) == AllSeasonCodes()
  {
    forall j | 0 <= j < k
      ensures args[j] != "--seasons"
    {
      assert args[j] == args[..k][j];
    }
    ScanSeasons(x, args, []);
    ScanToAll(args, k, [] + SplitEntries(x, ','));
  }

  /** Without `--seasons` there is nothing to collect, so every season is
      selected. */
  lemma ParseWithoutSeasons(args: seq<string>)
    requires "--seasons" !in args
    ensures ParseSeasonCodes(args) == AllSeasonCodes()
  {
    if "--all" in args {
      var k :| 0 <= k < |args| && args[k] == "--all";
      forall j | 0 <= j < k
        ensures args[j] != "--seasons"
      {
        assert args[j] in args;
      }
      ScanToAll(args, k, []);
    } else {
      ScanPlain(args, []);
    }
  }

  /** `--seasons x` followed by arguments that are neither flag selects the
      entries of `x`, or every season when `x` has none. */
  lemma ParseSeasonsThenOthers(x: string, rest: seq<string>)
    requires "--seasons" !in rest && "--all" !in rest
    ensures var entries := SplitEntries(x, ',');
      ParseSeasonCodes(["--seasons", x] + rest) == if |entries| == 0 then AllSeasonCodes() else entries
  {
    var args := ["--seasons", x] + rest;
    assert args[0] == "--seasons" && args[1] == x && args[2..] == rest;
    assert [] + SplitEntries(x, ',') == SplitEntries(x, ',');
    ScanPlain(rest, SplitEntries(x, ','));
  }

  /** Codes joined with commas and passed after `--seasons` come back as
      they were. */
  lemma ParseSeasonsList(codes: seq<string>)
    requires |codes| >= 1 && CleanCodes(codes)
    ensures ParseSeasonCodes(["--seasons", Join(codes, ',')]) == codes
  {
    SplitEntriesJoin(codes, ',');
    ParseSeasonsThenOthers(Join(codes, ','), []);
    assert ["--seasons", Join(codes, ',')] + [] == ["--seasons", Join(codes, ',')];
  }

  /** Scanning with a `--seasons` added after the last argument changes
      nothing, unless the last argument is itself `--seasons`. */
  lemma {:induction false} ScanExtended(args: seq<string>, acc: seq<string>)
    requires |args| == 0 || args[|args| - 1] != "--seasons"
    ensures ScanArgs(args + ["--seasons"], acc) == ScanArgs(args, acc)
  {
    var longer := args + ["--seasons"];
    if |args| == 0 {
      assert longer == ["--seasons"] && longer[1..] == [];
    } else {
      assert longer[0] == args[0];
      if args[0] == "--seasons" && |args| > 1 {
        assert longer[1] == args[1] && longer[2..] == args[2..] + ["--seasons"];
        ScanExtended(args[2..], acc + SplitEntries(args[1], ','));
      } else if args[0] == "--seasons" {
        assert false;
      } else if args[0] != "--all" {
        assert longer[1..] == args[1..] + ["--seasons"];
        ScanExtended(args[1..], acc);
      }
    }
  }

  /** A `--seasons` with nothing after it is ignored. */
  lemma TrailingSeasonsIgnored(args: seq<string>)
    requires |args| == 0 || args[|args| - 1] != "--seasons"
    ensures ParseSeasonCodes(args + ["--seasons"]) == ParseSeasonCodes(args)
  {
    ScanExtended(args, []);
  }

  // ---------------------------------------------------------------------------
  // Exported rows.

  /** `ConvertToSeasonResult`: the row exported for one team. */
  function ConvertToSeasonResult(s: Stats, season: string): SeasonResult
  {
    SeasonResult(season, s.team, s.originalPosition, s.newPosition, s.PositionChange(),
                 s.originalPoints, s.NewPoints(), s.zeroZeroDraws, s.GD())
  }

  /** An exported row keeps its own arithmetic: the position change is the
      original position less the new one, and the new points are the
      original points less one per goalless draw. */
  predicate Balanced(r: SeasonResult)
  {
    r.positionChange == r.originalPosition - r.newPosition
    && r.newPoints == r.originalPoints - r.zeroZeroDraws
  }

  /** The exported row copies the team, both positions, the original
      points and the goalless draws, takes the derived position change, new
      points and goal difference, and carries the given season label. */
  lemma ConvertBalanced(s: Stats, season: string)
    ensures var r := ConvertToSeasonResult(s, season);
      && Balanced(r)
      && r.team == s.team && r.season == season
      && r.originalPosition == s.originalPosition && r.newPosition == s.newPosition
      && r.originalPoints == s.originalPoints && r.zeroZeroDraws == s.zeroZeroDraws
      && r.positionChange == s.PositionChange() && r.newPoints == s.NewPoints()
      && r.goalDifference == s.gf - s.ga
  {
  }

  /** The `Select` over a season's table. */
  function ConvertAll(table: seq<Stats>, season: string): (rs: seq<SeasonResult>)
    ensures |rs| == |table|
  {
    seq(|table|, i requires 0 <= i < |table| => ConvertToSeasonResult(table[i], season))
  }

  /** Converting keeps each column's total. */
  lemma {:induction false} ConvertTotals(table: seq<Stats>, season: string)
    ensures ZeroZeroColumnSum(ConvertAll(table, season)) == Total(table, ZeroZeroDraws)
    ensures PositionChangeSum(ConvertAll(table, season)) == Total(table, PositionChange)
  {
    if |table| > 0 {
      ConvertTotals(table[1..], season);
      assert ConvertAll(table, season)[1..] == ConvertAll(table[1..], season);
    }
  }

  /** Converting a table ranked on new points and numbered by index gives
      rows numbered 1, 2, ... by new position with new points never
      increasing down the list. */
  lemma ConvertRanked(table: seq<Stats>, season: string)
    requires Ranked(table, New)
    requires forall i :: 0 <= i < |table| ==> table[i].newPosition == i + 1
    ensures var rs := ConvertAll(table, season);
      && (forall i :: 0 <= i < |rs| ==> rs[i].newPosition == i + 1 && rs[i].season == season)
      && (forall i, j :: 0 <= i < j < |rs| ==> rs[j].newPoints <= rs[i].newPoints)
  {
    RankedPoints(table, New);
  }

  /** A season's exported rows, one per team, come in new-position order. */
  lemma SeasonResultsOrder(ms: seq<Match>, season: string)
    ensures var rs := ConvertAll(CalculateTable(ms, season), season);
      && |rs| == |Teams(ms)|
      && (forall i :: 0 <= i < |rs| ==> rs[i].newPosition == i + 1 && rs[i].season == season)
      && (forall i, j :: 0 <= i < j < |rs| ==> rs[j].newPoints <= rs[i].newPoints)
  {
    ConvertRanked(CalculateTable(ms, season), season);
  }

  /** Each exported row is balanced, with new points between zero and the
      original points. */
  lemma SeasonResultsRows(ms: seq<Match>, season: string)
    ensures var rs := ConvertAll(CalculateTable(ms, season), season);
      forall i :: 0 <= i < |rs| ==> Balanced(rs[i]) && 0 <= rs[i].newPoints <= rs[i].originalPoints
  {
    var table := CalculateTable(ms, season);
    forall i | 0 <= i < |table|
      ensures Consistent(table[i])
    {
      TableRowFacts(ms, season, i);
    }
    ConvertConsistent(table, season);
  }

  /** Rows converted from consistent records are balanced and have new
      points between zero and the original points. */
  lemma ConvertConsistent(table: seq<Stats>, season: string)
    requires forall i :: 0 <= i < |table| ==> Consistent(table[i])
    ensures var rs := ConvertAll(table, season);
      forall i :: 0 <= i < |rs| ==> Balanced(rs[i]) && 0 <= rs[i].newPoints <= rs[i].originalPoints
  {
    forall i | 0 <= i < |table|
      ensures 0 <= table[i].NewPoints() <= table[i].originalPoints
    {
      ConsistentPoints(table[i]);
    }
  }

  /** Over a season's exported rows the position changes cancel out and
      the goalless-draw column counts each goalless draw twice. */
  lemma SeasonResultsTotals(ms: seq<Match>, season: string)
    ensures PositionChangeSum(ConvertAll(CalculateTable(ms, season), season)) == 0
    ensures ZeroZeroColumnSum(ConvertAll(CalculateTable(ms, season), season)) == 2 * ZeroZeroCount(ms)
  {
    var table := CalculateTable(ms, season);
    ConvertTotals(table, season);
    PositionChangesCancel(ms, season);
    TableBalances(ms, season);
  }
}

=== FILE: ranking.dfy ===
/** The two ranking passes of LeagueTableCalculator.CalculateTable
    (LeagueTableCalculator.cs:77-99): a stable sort, descending on
    (points, goal difference, goals for), then 1-based positions by index. */
module Ranking {

  import opened TeamSeasonStats

  /** Which points column a pass ranks on. */
  datatype Rule = Original | New

  datatype Key = Key(points: int, gd: int, gf: int)

  /** The sort key of a record. It reads neither position field, so what the
      first pass writes cannot influence the second. */
  function KeyOf(s: Stats, rule: Rule): Key
  {
    Key(if rule.Original? then s.originalPoints else s.NewPoints(), s.GD(), s.gf)
  }

  /** `a` sorts strictly ahead of `b`: more points, else better goal
      difference, else more goals scored. */
  predicate Above(a: Key, b: Key)
  {
    || a.points > b.points
    || (a.points == b.points && a.gd > b.gd)
    || (a.points == b.points && a.gd == b.gd && a.gf > b.gf)
  }

  predicate Ahead(a: Stats, b: Stats, rule: Rule)
  {
    Above(KeyOf(a, rule), KeyOf(b, rule))
  }

  /** No row is strictly ahead of a row listed before it. */
  predicate Ranked(rows: seq<Stats>, rule: Rule)
  {
    forall i, j :: 0 <= i < j < |rows| ==> !Ahead(rows[j], rows[i], rule)
  }

  /** The rows whose key is `k`, in list order. */
  function WithKey(rows: seq<Stats>, rule: Rule, k: Key): seq<Stats>
  {
    if |rows| == 0 then []
    else (if KeyOf(rows[0], rule) == k then [rows[0]] else []) + WithKey(rows[1..], rule, k)
  }

  lemma WithKeyCons(y: Stats, rows: seq<Stats>, rule: Rule, k: Key)
    ensures WithKey([y] + rows, rule, k) == (if KeyOf(y, rule) == k then [y] else []) + WithKey(rows, rule, k)
  {
    assert ([y] + rows)[1..] == rows;
  }

  /** Places `x` after every row strictly ahead of it and before the rest,
      so `x` precedes the rows it ties with. */
  function Insert(x: Stats, rows: seq<Stats>, rule: Rule): (r: seq<Stats>)
    ensures |r| == |rows| + 1
    ensures multiset(r) == multiset(rows) + multiset{x}
    ensures forall y :: y in r <==> y == x || y in rows
  {
    if |rows| == 0 then [x]
    else if Ahead(rows[0], x, rule) then
      assert rows == [rows[0]] + rows[1..];
      [rows[0]] + Insert(x, rows[1..], rule)
    else
      [x] + rows
  }

  lemma {:induction false} InsertRanked(x: Stats, rows: seq<Stats>, rule: Rule)
    requires Ranked(rows, rule)
    ensures Ranked(Insert(x, rows, rule), rule)
  {
    if |rows| > 0 && Ahead(rows[0], x, rule) {
      var tail := Insert(x, rows[1..], rule);
      InsertRanked(x, rows[1..], rule);
      assert Insert(x, rows, rule) == [rows[0]] + tail;
      forall j | 0 <= j < |tail| ensures !Ahead(tail[j], rows[0], rule) {
        assert tail[j] in tail;
        if tail[j] != x {
          var i :| 0 <= i < |rows[1..]| && rows[1..][i] == tail[j];
          assert rows[i + 1] == tail[j];
        }
      }
    }
  }

  lemma {:induction false} InsertWithKey(x: Stats, rows: seq<Stats>, rule: Rule, k: Key)
    ensures WithKey(Insert(x, rows, rule), rule, k)
            == (if KeyOf(x, rule) == k then [x] else []) + WithKey(rows, rule, k)
  {
    if |rows| > 0 && Ahead(rows[0], x, rule) {
      var rest := rows[1..];
      InsertAhead(x, rows, rule);
      InsertWithKey(x, rest, rule, k);
      WithKeyCons(rows[0], Insert(x, rest, rule), rule, k);
      SwapDisjoint(if KeyOf(x, rule) == k then [x] else [],
                   if KeyOf(rows[0], rule) == k then [rows[0]] else [],
                   WithKey(rest, rule, k));
    } else {
      WithKeyCons(x, rows, rule, k);
    }
  }

  lemma InsertAhead(x: Stats, rows: seq<Stats>, rule: Rule)
    requires |rows| > 0 && Ahead(rows[0], x, rule)
    ensures Insert(x, rows, rule) == [rows[0]] + Insert(x, rows[1..], rule)
  {
  }

  /** Two lists of which one is empty can be swapped in front of a third. */
  lemma SwapDisjoint<T>(a: seq<T>, b: seq<T>, w: seq<T>)
    requires a == [] || b == []
    ensures b + (a + w) == a + (b + w)
  {
    if a == [] {
      assert b + (a + w) == b + w;
      assert a + (b + w) == b + w;
    } else {
      assert b + (a + w) == a + w;
      assert a + (b + w) == a + w;
    }
  }

  /** Stable insertion sort, the model of OrderByDescending/ThenByDescending:
      the result is a reordering of the input, ranked, and for every key the
      rows sharing it keep their input order. */
  function Sort(rows: seq<Stats>, rule: Rule): (r: seq<Stats>)
    ensures |r| == |rows|
    ensures multiset(r) == multiset(rows)
    ensures forall y :: y in r <==> y in rows
    ensures Ranked(r, rule)
    ensures forall k :: WithKey(r, rule, k) == WithKey(rows, rule, k)
  {
    if |rows| == 0 then []
    else
      var sorted := Sort(rows[1..], rule);
      assert rows == [rows[0]] + rows[1..];
      InsertRanked(rows[0], sorted, rule);
      assert forall k :: WithKey(Insert(rows[0], sorted, rule), rule, k) == WithKey(rows, rule, k) by {
        forall k ensures WithKey(Insert(rows[0], sorted, rule), rule, k) == WithKey(rows, rule, k) {
          InsertWithKey(rows[0], sorted, rule, k);
        }
      }
      Insert(rows[0], sorted, rule)
  }

  /** The position loop: the row at index i gets position i + 1 under `rule`. */
  function AssignPositions(rows: seq<Stats>, rule: Rule): (r: seq<Stats>)
    ensures |r| == |rows|
    ensures forall i :: 0 <= i < |r| ==> Alike(r[i], rows[i])
  {
    seq(|rows|, i requires 0 <= i < |rows| =>
      if rule.Original? then rows[i].(originalPosition := i + 1) else rows[i].(newPosition := i + 1))
  }

  /** Numbering writes only the position of its own pass. */
  lemma AssignPositionsKeeps(rows: seq<Stats>, rule: Rule)
    ensures forall i :: 0 <= i < |rows| ==>
              if rule.Original?
              then AssignPositions(rows, rule)[i].originalPosition == i + 1
                   && AssignPositions(rows, rule)[i].newPosition == rows[i].newPosition
              else AssignPositions(rows, rule)[i].newPosition == i + 1
                   && AssignPositions(rows, rule)[i].originalPosition == rows[i].originalPosition
  {
  }

  /** Ranking depends on keys only, which positions do not affect. */
  lemma AlikeRanked(a: seq<Stats>, b: seq<Stats>, rule: Rule)
    requires AlikeRows(a, b) && Ranked(b, rule)
    ensures Ranked(a, rule)
  {
    forall i, j | 0 <= i < j < |a| ensures !Ahead(a[j], a[i], rule) {
      assert Alike(a[j], b[j]) && Alike(a[i], b[i]);
      assert KeyOf(a[j], rule) == KeyOf(b[j], rule) && KeyOf(a[i], rule) == KeyOf(b[i], rule);
    }
  }

  /** Down a ranked list the points of the rule never increase. */
  lemma RankedPoints(rows: seq<Stats>, rule: Rule)
    requires Ranked(rows, rule)
    ensures forall i, j :: 0 <= i < j < |rows| ==> KeyOf(rows[j], rule).points <= KeyOf(rows[i], rule).points
  {
    forall i, j | 0 <= i < j < |rows|
      ensures KeyOf(rows[j], rule).points <= KeyOf(rows[i], rule).points
    {
      assert !Ahead(rows[j], rows[i], rule);
    }
  }

  /** Sorting keeps the set of team names. */
  lemma SortKeepsNames(rows: seq<Stats>, rule: Rule)
    ensures forall t :: t in TeamNames(Sort(rows, rule)) <==> t in TeamNames(rows)
  {
    var sorted := Sort(rows, rule);
    forall t ensures t in TeamNames(sorted) ==> t in TeamNames(rows) {
      if t in TeamNames(sorted) {
        var y := RowNamed(sorted, t);
        NameOfRow(rows, y);
      }
    }
    forall t ensures t in TeamNames(rows) ==> t in TeamNames(sorted) {
      if t in TeamNames(rows) {
        var y := RowNamed(rows, t);
        NameOfRow(sorted, y);
      }
    }
  }

  /** A row of `rows` whose team is `t`. */
  ghost function RowNamed(rows: seq<Stats>, t: string): (y: Stats)
    requires t in TeamNames(rows)
    ensures y in rows && y.team == t
  {
    var j :| 0 <= j < |rows| && TeamNames(rows)[j] == t;
    rows[j]
  }

  lemma NameOfRow(rows: seq<Stats>, y: Stats)
    requires y in rows
    ensures y.team in TeamNames(rows)
  {
    var j :| 0 <= j < |rows| && rows[j] == y;
    assert TeamNames(rows)[j] == y.team;
  }

  /** One full pass: sort, then number. */
  function Rank(rows: seq<Stats>, rule: Rule): seq<Stats>
  {
    AssignPositions(Sort(rows, rule), rule)
  }

  // ---------------------------------------------------------------------------

  lemma {:induction false} InsertTotal(x: Stats, rows: seq<Stats>, rule: Rule, c: Column)
    ensures Total(Insert(x, rows, rule), c) == Get(x, c) + Total(rows, c)
  {
    if |rows| > 0 && Ahead(rows[0], x, rule) {
      InsertTotal(x, rows[1..], rule, c);
      assert Insert(x, rows, rule)[1..] == Insert(x, rows[1..], rule);
    } else if |rows| > 0 {
      assert Insert(x, rows, rule)[1..] == rows;
    }
  }

  /** Sorting keeps every column total. */
  lemma {:induction false} SortTotal(rows: seq<Stats>, rule: Rule, c: Column)
    ensures Total(Sort(rows, rule), c) == Total(rows, c)
  {
    if |rows| > 0 {
      SortTotal(rows[1..], rule, c);
      InsertTotal(rows[0], Sort(rows[1..], rule), rule, c);
    }
  }

  lemma {:induction false} InsertDistinct(x: Stats, rows: seq<Stats>, rule: Rule)
    requires DistinctTeams(rows)
    requires forall y :: y in rows ==> y.team != x.team
    ensures DistinctTeams(Insert(x, rows, rule))
  {
    if |rows| > 0 && Ahead(rows[0], x, rule) {
      var tail := Insert(x, rows[1..], rule);
      InsertDistinct(x, rows[1..], rule);
      assert Insert(x, rows, rule) == [rows[0]] + tail;
      forall j | 0 <= j < |tail| ensures tail[j].team != rows[0].team {
        assert tail[j] in tail;
      }
    }
  }

  /** Sorting rows with distinct team names keeps them distinct. */
  lemma {:induction false} SortDistinct(rows: seq<Stats>, rule: Rule)
    requires DistinctTeams(rows)
    ensures DistinctTeams(Sort(rows, rule))
  {
    if |rows| > 0 {
      SortDistinct(rows[1..], rule);
      forall y | y in Sort(rows[1..], rule) ensures y.team != rows[0].team {
        var j :| 0 <= j < |rows[1..]| && rows[1..][j] == y;
      }
      InsertDistinct(rows[0], Sort(rows[1..], rule), rule);
    }
  }

  lemma {:induction false} InsertAlike(x: Stats, a: seq<Stats>, x': Stats, b: seq<Stats>, rule: Rule)
    requires Alike(x, x') && AlikeRows(a, b)
    ensures AlikeRows(Insert(x, a, rule), Insert(x', b, rule))
  {
    if |a| == 0 {
    } else {
      assert Alike(a[0], b[0]);
      assert KeyOf(a[0], rule) == KeyOf(b[0], rule) && KeyOf(x, rule) == KeyOf(x', rule);
      if Ahead(a[0], x, rule) {
        InsertAlike(x, a[1..], x', b[1..], rule);
        ConsAlike(a[0], Insert(x, a[1..], rule), b[0], Insert(x', b[1..], rule));
      } else {
        ConsAlike(x, a, x', b);
      }
    }
  }

  lemma ConsAlike(x: Stats, a: seq<Stats>, y: Stats, b: seq<Stats>)
    requires Alike(x, y) && AlikeRows(a, b)
    ensures AlikeRows([x] + a, [y] + b)
  {
    assert forall i :: 0 < i <= |a| ==> ([x] + a)[i] == a[i - 1] && ([y] + b)[i] == b[i - 1];
  }

  /** The order a sort produces depends on nothing but the keys, names and
      counters of its input: rows that differ only in their positions are
      sorted alike. */
  lemma {:induction false} SortAlike(a: seq<Stats>, b: seq<Stats>, rule: Rule)
    requires AlikeRows(a, b)
    ensures AlikeRows(Sort(a, rule), Sort(b, rule))
  {
    if |a| > 0 {
      SortAlike(a[1..], b[1..], rule);
      InsertAlike(a[0], Sort(a[1..], rule), b[0], Sort(b[1..], rule), rule);
    }
  }

  lemma {:induction false} WithKeyAlike(a: seq<Stats>, b: seq<Stats>, rule: Rule, k: Key)
    requires AlikeRows(a, b)
    ensures AlikeRows(WithKey(a, rule, k), WithKey(b, rule, k))
  {
    if |a| > 0 {
      assert Alike(a[0], b[0]);
      assert KeyOf(a[0], rule) == KeyOf(b[0], rule);
      WithKeyAlike(a[1..], b[1..], rule, k);
    }
  }
}

=== FILE: season_result.dfy ===
/** The exported result row for one team in one season (Models/SeasonResult.cs). */
module SeasonResults {

  datatype SeasonResult = SeasonResult(
    season: string,
    team: string,
    originalPosition: int,
    newPosition: int,
    positionChange: int,
    originalPoints: int,
    newPoints: int,
    zeroZeroDraws: int,
    goalDifference: int)

  /** Sum of the zero-zero draw column over a list of rows. */
  function ZeroZeroColumnSum(rows: seq<SeasonResult>): int
  {
    if |rows| == 0 then 0 else rows[0].zeroZeroDraws + ZeroZeroColumnSum(rows[1..])
  }

  /** Sum of the position-change column over a list of rows. */
  function PositionChangeSum(rows: seq<SeasonResult>): int
  {
    if |rows| == 0 then 0 else rows[0].positionChange + PositionChangeSum(rows[1..])
  }
}

=== FILE: team_season_stats.dfy ===
/** A team's season record (Models/TeamSeasonStats.cs) and column arithmetic over lists of records. */
module TeamSeasonStats {

  import opened Permutations

  /** Counters are accumulated per match; `GD`, `NewPoints` and
      `PositionChange` are derived and never stored. */
  datatype Stats = Stats(
    team: string,
    played: int,
    wins: int,
    draws: int,
    losses: int,
    gf: int,
    ga: int,
    originalPoints: int,
    zeroZeroDraws: int,
    originalPosition: int,
    newPosition: int)
  {
    function GD(): int { gf - ga }
    /** Points under the rule where a goalless draw earns nothing. */
    function NewPoints(): int { originalPoints - zeroZeroDraws }
    /** Positive when the team climbs under the new rule. */
    function PositionChange(): int { originalPosition - newPosition }
  }

  /** A freshly constructed record for `team`: every counter and position zero. */
  function Fresh(team: string): Stats
  {
    Stats(team, 0, 0, 0, 0, 0, 0, 0, 0, 0, 0)
  }

  /** The all-zero increment. */
  const Zero: Stats := Fresh("")

  /** `a` with the counters of `d` added; name and positions are those of `a`. */
  function Add(a: Stats, d: Stats): Stats
  {
    a.(played := a.played + d.played,
       wins := a.wins + d.wins,
       draws := a.draws + d.draws,
       losses := a.losses + d.losses,
       gf := a.gf + d.gf,
       ga := a.ga + d.ga,
       originalPoints := a.originalPoints + d.originalPoints,
       zeroZeroDraws := a.zeroZeroDraws + d.zeroZeroDraws)
  }

  /** The counters of a record that could come from real matches: result
      counts are non-negative and at most the games played, points are 3
      per win and 1 per draw, and goalless draws are among the draws. */
  predicate Consistent(s: Stats)
  {
    && s.wins >= 0 && s.draws >= 0 && s.losses >= 0
    && s.wins + s.draws + s.losses <= s.played
    && s.originalPoints == 3 * s.wins + s.draws
    && 0 <= s.zeroZeroDraws <= s.draws
  }

  /** Every game played has a result. */
  predicate Decided(s: Stats)
  {
    s.wins + s.draws + s.losses == s.played
  }

  /** A consistent record's new points lie between zero and its original
      points, and equal the original points exactly when it has no
      goalless draw. */
  lemma ConsistentPoints(s: Stats)
    requires Consistent(s)
    ensures 0 <= s.NewPoints() <= s.originalPoints
    ensures s.NewPoints() == s.originalPoints <==> s.zeroZeroDraws == 0
  {
  }

  /** Adding consistent counters keeps them consistent, and decided ones decided. */
  lemma ConsistentAdd(a: Stats, d: Stats)
    requires Consistent(a) && Consistent(d)
    ensures Consistent(Add(a, d))
    ensures Decided(a) && Decided(d) ==> Decided(Add(a, d))
  {
  }

  /** A fresh record reads zero in every column, stored or derived, and is
      consistent and decided. */
  lemma FreshIsZero(team: string)
    ensures forall c: Column :: Get(Fresh(team), c) == 0
    ensures Fresh(team).team == team
    ensures Consistent(Fresh(team)) && Decided(Fresh(team))
  {
  }

  /** Two records that differ at most in their position fields. */
  predicate Alike(a: Stats, b: Stats)
  {
    && a.team == b.team && a.played == b.played
    && a.wins == b.wins && a.draws == b.draws && a.losses == b.losses
    && a.gf == b.gf && a.ga == b.ga
    && a.originalPoints == b.originalPoints && a.zeroZeroDraws == b.zeroZeroDraws
  }

  /** The columns of a record, stored and derived. */
  datatype Column =
    | Played | Wins | Draws | Losses | GoalsFor | GoalsAgainst | GoalDifference
    | OriginalPoints | ZeroZeroDraws | NewPoints
    | OriginalPosition | NewPosition | PositionChange
  {
    /** Columns that accumulate match by match (everything but the positions). */
    predicate IsCounter()
    {
      !(OriginalPosition? || NewPosition? || PositionChange?)
    }
  }

  function Get(s: Stats, c: Column): int
  {
    match c
    case Played => s.played
    case Wins => s.wins
    case Draws => s.draws
    case Losses => s.losses
    case GoalsFor => s.gf
    case GoalsAgainst => s.ga
    case GoalDifference => s.GD()
    case OriginalPoints => s.originalPoints
    case ZeroZeroDraws => s.zeroZeroDraws
    case NewPoints => s.NewPoints()
    case OriginalPosition => s.originalPosition
    case NewPosition => s.newPosition
    case PositionChange => s.PositionChange()
  }

  /** Sum of column `c` over `rows`. */
  function Total(rows: seq<Stats>, c: Column): int
  {
    if |rows| == 0 then 0 else Get(rows[0], c) + Total(rows[1..], c)
  }

  /** Column `c` of `rows`, as a list of integers. */
  function ColumnOf(rows: seq<Stats>, c: Column): (col: seq<int>)
    ensures |col| == |rows|
    ensures forall i :: 0 <= i < |rows| ==> col[i] == Get(rows[i], c)
  {
    seq(|rows|, i requires 0 <= i < |rows| => Get(rows[i], c))
  }

  function TeamNames(rows: seq<Stats>): (names: seq<string>)
    ensures |names| == |rows|
    ensures forall i :: 0 <= i < |rows| ==> names[i] == rows[i].team
  {
    seq(|rows|, i requires 0 <= i < |rows| => rows[i].team)
  }

  /** No two rows carry the same team name. */
  predicate DistinctTeams(rows: seq<Stats>)
  {
    Distinct(TeamNames(rows))
  }

  /** Index-wise `Alike`. */
  predicate AlikeRows(a: seq<Stats>, b: seq<Stats>)
  {
    |a| == |b| && forall i :: 0 <= i < |a| ==> Alike(a[i], b[i])
  }

  lemma AlikeNames(a: seq<Stats>, b: seq<Stats>)
    requires AlikeRows(a, b)
    ensures TeamNames(a) == TeamNames(b)
  {
    assert forall i :: 0 <= i < |a| ==> Alike(a[i], b[i]);
  }

  lemma AlikeDistinct(a: seq<Stats>, b: seq<Stats>)
    requires AlikeRows(a, b) && DistinctTeams(b)
    ensures DistinctTeams(a)
  {
    forall i, j | 0 <= i < j < |a| ensures a[i].team != a[j].team {
      assert Alike(a[i], b[i]) && Alike(a[j], b[j]);
    }
  }

  lemma AddAssociative(a: Stats, b: Stats, c: Stats)
    ensures Add(Add(a, b), c) == Add(a, Add(b, c))
  {
  }

  /** Counter columns are additive. */
  lemma AddGet(a: Stats, d: Stats, c: Column)
    requires c.IsCounter()
    ensures Get(Add(a, d), c) == Get(a, c) + Get(d, c)
  {
  }

  /** The derived position change is the difference of the two position columns,
      also when summed. */
  lemma {:induction false} TotalPositionChange(rows: seq<Stats>)
    ensures Total(rows, PositionChange) == Total(rows, OriginalPosition) - Total(rows, NewPosition)
  {
    if |rows| > 0 {
      TotalPositionChange(rows[1..]);
    }
  }

  /** Rows that differ only in positions have the same counter totals. */
  lemma {:induction false} AlikeTotals(a: seq<Stats>, b: seq<Stats>, c: Column)
    requires AlikeRows(a, b)
    requires c.IsCounter()
    ensures Total(a, c) == Total(b, c)
  {
    if |a| > 0 {
      assert Alike(a[0], b[0]);
      assert Get(a[0], c) == Get(b[0], c);
      AlikeTotals(a[1..], b[1..], c);
    }
  }

  /** A column's `Total` is the plain sum of that column. */
  lemma {:induction false} TotalIsColumnSum(rows: seq<Stats>, c: Column)
    ensures Total(rows, c) == SumInts(ColumnOf(rows, c))
  {
    if |rows| > 0 {
      assert ColumnOf(rows, c)[1..] == ColumnOf(rows[1..], c);
      TotalIsColumnSum(rows[1..], c);
    }
  }
}

=== FILE: text.dfy ===
/** The .NET string operations the command line and the exporter rely on:
    trimming white space, splitting on a separator, and replacing one
    character by another. */
module Text {

  /** `char.IsWhiteSpace`: the Unicode space, line and paragraph
      separators, the controls U+0009 to U+000D, and U+0085. */
  predicate IsWhiteSpace(c: char)
  {
    || c == ' ' || ('\t' <= c <= '\r') || c == '\U{85}' || c == '\U{A0}'
    || c == '\U{1680}' || ('\U{2000}' <= c <= '\U{200A}') || c == '\U{2028}' || c == '\U{2029}'
    || c == '\U{202F}' || c == '\U{205F}' || c == '\U{3000}'
  }

  /** No white space at either end. */
  predicate Trimmed(s: string)
  {
    |s| == 0 || (!IsWhiteSpace(s[0]) && !IsWhiteSpace(s[|s| - 1]))
  }

  /** `s` with its leading white space removed. */
  function TrimStart(s: string): string
  {
    if |s| > 0 && IsWhiteSpace(s[0]) then TrimStart(s[1..]) else s
  }

  /** Trimming the start cuts off only white space and leaves a suffix that
      does not start with white space. */
  lemma {:induction false} TrimStartFacts(s: string)
    ensures |TrimStart(s)| <= |s| && TrimStart(s) == s[|s| - |TrimStart(s)|..]
    ensures forall i :: 0 <= i < |s| - |TrimStart(s)| ==> IsWhiteSpace(s[i])
    ensures |TrimStart(s)| > 0 ==> !IsWhiteSpace(TrimStart(s)[0])
  {
    if |s| > 0 && IsWhiteSpace(s[0]) {
      TrimStartFacts(s[1..]);
      var r := TrimStart(s[1..]);
      assert s[1..][|s| - 1 - |r|..] == s[|s| - |r|..];
      forall i | 1 <= i < |s| - |r|
        ensures IsWhiteSpace(s[i])
      {
        assert s[i] == s[1..][i - 1];
      }
    }
  }

  /** `s` with its trailing white space removed. */
  function TrimEnd(s: string): string
  {
    if |s| > 0 && IsWhiteSpace(s[|s| - 1]) then TrimEnd(s[..|s| - 1]) else s
  }

  /** Trimming the end cuts off only white space and leaves a prefix that
      does not end with white space. */
  lemma {:induction false} TrimEndFacts(s: string)
    ensures |TrimEnd(s)| <= |s| && TrimEnd(s) == s[..|TrimEnd(s)|]
    ensures forall i :: |TrimEnd(s)| <= i < |s| ==> IsWhiteSpace(s[i])
    ensures |TrimEnd(s)| > 0 ==> !IsWhiteSpace(TrimEnd(s)[|TrimEnd(s)| - 1])
  {
    if |s| > 0 && IsWhiteSpace(s[|s| - 1]) {
      var shorter := s[..|s| - 1];
      TrimEndFacts(shorter);
      var r := TrimEnd(shorter);
      assert shorter[..|r|] == s[..|r|];
      forall i | |r| <= i < |s| - 1
        ensures IsWhiteSpace(s[i])
      {
        assert s[i] == shorter[i];
      }
    }
  }

  /** `string.Trim()`: the longest middle part of `s` with no white space
      at its ends; what is cut off on either side is all white space. */
  function Trim(s: string): string
  {
    TrimEnd(TrimStart(s))
  }

  /** A trimmed string is trimmed, and is made of characters of `s`. */
  lemma TrimFacts(s: string)
    ensures Trimmed(Trim(s))
    ensures |Trim(s)| <= |s|
    ensures forall c :: c in Trim(s) ==> c in s
  {
    var t := TrimStart(s);
    TrimStartFacts(s);
    TrimEndFacts(t);
    var r := Trim(s);
    assert |r| > 0 ==> r[0] == t[0];
    forall c | c in r
      ensures c in s
    {
      var k :| 0 <= k < |r| && r[k] == c;
      assert r[k] == t[k] == s[|s| - |t| + k];
    }
  }

  /** Trimming changes nothing exactly when there is nothing to trim. */
  lemma TrimUnchanged(s: string)
    ensures Trim(s) == s <==> Trimmed(s)
  {
    if Trimmed(s) && |s| > 0 {
      assert !IsWhiteSpace(s[0]);
      assert TrimStart(s) == s;
      assert !IsWhiteSpace(s[|s| - 1]);
      assert TrimEnd(s) == s;
    } else if Trim(s) == s {
      TrimFacts(s);
    }
  }

  /** Trimming twice is trimming once. */
  lemma TrimIdempotent(s: string)
    ensures Trim(Trim(s)) == Trim(s)
  {
    TrimFacts(s);
    TrimUnchanged(Trim(s));
  }

  /** `parts` glued back together with `sep` between neighbours. */
  function Join(parts: seq<string>, sep: char): string
    requires |parts| >= 1
  {
    if |parts| == 1 then parts[0] else parts[0] + [sep] + Join(parts[1..], sep)
  }

  /** `string.Split(sep)` with no options: the maximal runs between
      separators, including the empty ones. */
  function Split(s: string, sep: char): (parts: seq<string>)
    ensures |parts| >= 1
  {
    if |s| == 0 then [""]
    else
      var rest := Split(s[1..], sep);
      if s[0] == sep then [""] + rest else [[s[0]] + rest[0]] + rest[1..]
  }

  /** No part holds the separator. */
  lemma {:induction false} SplitParts(s: string, sep: char)
    ensures forall i :: 0 <= i < |Split(s, sep)| ==> sep !in Split(s, sep)[i]
  {
    if |s| > 0 {
      SplitParts(s[1..], sep);
      var rest := Split(s[1..], sep);
      if s[0] != sep {
        assert sep !in [s[0]] + rest[0];
      }
    }
  }

  /** Joining the parts of a split restores the string. */
  lemma {:induction false} JoinSplit(s: string, sep: char)
    ensures Join(Split(s, sep), sep) == s
  {
    if |s| > 0 {
      var rest := Split(s[1..], sep);
      JoinSplit(s[1..], sep);
      if s[0] == sep {
        assert Split(s, sep)[1..] == rest;
      } else {
        var parts := Split(s, sep);
        assert parts[1..] == rest[1..];
        if |rest| > 1 {
          assert Join(rest, sep) == rest[0] + [sep] + Join(rest[1..], sep);
        }
        assert s == [s[0]] + s[1..];
      }
    }
  }

  /** Splitting a join of separator-free parts gives the parts back. */
  lemma {:induction false} SplitJoin(parts: seq<string>, sep: char)
    requires |parts| >= 1
    requires forall i :: 0 <= i < |parts| ==> sep !in parts[i]
    ensures Split(Join(parts, sep), sep) == parts
    decreases |parts|, |parts[0]|
  {
    var s := Join(parts, sep);
    if |parts[0]| == 0 {
      if |parts| > 1 {
        var tail := parts[1..];
        SplitJoin(tail, sep);
        assert s == [sep] + Join(tail, sep);
        assert s[1..] == Join(tail, sep);
        assert parts == [""] + tail;
      }
    } else {
      var c := parts[0][0];
      var shorter := [parts[0][1..]] + parts[1..];
      assert forall i :: 1 <= i < |shorter| ==> shorter[i] == parts[i];
      assert sep !in shorter[0] by {
        assert forall k :: 0 <= k < |shorter[0]| ==> shorter[0][k] == parts[0][k + 1];
      }
      SplitJoin(shorter, sep);
      assert c != sep by { assert c == parts[0][0]; }
      if |parts| == 1 {
        assert s[1..] == Join(shorter, sep);
      } else {
        assert s[1..] == Join(shorter, sep) by {
          assert Join(shorter, sep) == shorter[0] + [sep] + Join(shorter[1..], sep);
          assert shorter[1..] == parts[1..];
        }
      }
      assert s[0] == c;
      assert [c] + parts[0][1..] == parts[0];
      assert parts == [[c] + shorter[0]] + shorter[1..];
    }
  }

  /** The trimmed, non-empty entries among `parts`, in order. */
  function Entries(parts: seq<string>): seq<string>
  {
    if |parts| == 0 then []
    else
      var t := Trim(parts[0]);
      (if |t| == 0 then [] else [t]) + Entries(parts[1..])
  }

  /** Every entry is non-empty and trimmed. */
  lemma {:induction false} EntriesClean(parts: seq<string>)
    ensures forall i :: 0 <= i < |Entries(parts)| ==> |Entries(parts)[i]| > 0 && Trimmed(Entries(parts)[i])
  {
    if |parts| > 0 {
      var t := Trim(parts[0]);
      var rest := Entries(parts[1..]);
      EntriesClean(parts[1..]);
      if |t| > 0 {
        TrimFacts(parts[0]);
        var es := [t] + rest;
        assert Entries(parts) == es;
        forall i | 0 < i < |es|
          ensures es[i] == rest[i - 1]
        {
        }
      } else {
        assert Entries(parts) == rest;
      }
    }
  }

  /** An entry keeps out every character its part kept out. */
  lemma {:induction false} EntriesAvoid(parts: seq<string>, c: char)
    requires forall i :: 0 <= i < |parts| ==> c !in parts[i]
    ensures forall i :: 0 <= i < |Entries(parts)| ==> c !in Entries(parts)[i]
  {
    if |parts| > 0 {
      TrimFacts(parts[0]);
      EntriesAvoid(parts[1..], c);
    }
  }

  /** Parts that are already trimmed and non-empty are their own entries. */
  lemma {:induction false} EntriesOfClean(parts: seq<string>)
    requires forall i :: 0 <= i < |parts| ==> |parts[i]| > 0 && Trimmed(parts[i])
    ensures Entries(parts) == parts
  {
    if |parts| > 0 {
      TrimUnchanged(parts[0]);
      EntriesOfClean(parts[1..]);
    }
  }

  /** Parts made only of white space leave no entries behind. */
  lemma {:induction false} EntriesOfBlank(parts: seq<string>)
    requires forall i :: 0 <= i < |parts| ==> |Trim(parts[i])| == 0
    ensures Entries(parts) == []
  {
    if |parts| > 0 {
      EntriesOfBlank(parts[1..]);
    }
  }

  /** `string.Split(sep, RemoveEmptyEntries | TrimEntries)`: each part
      trimmed, and the parts left empty dropped. */
  function SplitEntries(s: string, sep: char): seq<string>
  {
    Entries(Split(s, sep))
  }

  /** Every entry is non-empty, trimmed and free of the separator. */
  lemma SplitEntriesClean(s: string, sep: char)
    ensures forall i :: 0 <= i < |SplitEntries(s, sep)| ==>
      |SplitEntries(s, sep)[i]| > 0 && Trimmed(SplitEntries(s, sep)[i]) && sep !in SplitEntries(s, sep)[i]
  {
    var parts := Split(s, sep);
    SplitParts(s, sep);
    EntriesClean(parts);
    EntriesAvoid(parts, sep);
  }

  /** A separator-joined list of trimmed, non-empty, separator-free
      entries splits back into that list. */
  lemma SplitEntriesJoin(entries: seq<string>, sep: char)
    requires |entries| >= 1
    requires forall i :: 0 <= i < |entries| ==> |entries[i]| > 0 && Trimmed(entries[i]) && sep !in entries[i]
    ensures SplitEntries(Join(entries, sep), sep) == entries
  {
    SplitJoin(entries, sep);
    EntriesOfClean(entries);
  }

  /** `string.Replace` of the one-character string `from` by the
      one-character string `to`: an ordinal search, so each occurrence of
      the character is substituted and nothing else moves. */
  function Replace(s: string, from: char, to: char): (r: string)
  {
    seq(|s|, i requires 0 <= i < |s| => if s[i] == from then to else s[i])
  }
}
